=== FILE: README.md ===
# Runic Babble persona relay, in Dafny

Runic Babble is a chat bot. It rewrites messages into the constructed script
Madouji and posts them again under the original author's name and avatar,
through a per-channel webhook. This project models the two parts of the bot
that hold real logic, and proves properties of them.

- **The Madouji text transform** (`runicbabble/formats/mdj_emotes.py`).
  - `mdj_format` folds a base letter followed by an apostrophe into one
    accented glyph (module `Glyphs`).
  - `init_emotes` builds the glyph-to-emoji table from the home server's
    emoji list. `mdj_emote_format` substitutes each character through that
    table (module `Emotes`).
  - `render` finds the trigger spans `` `mdj<ws>...` ``, which the source
    matches with a regular expression that has a backslash look-behind, and
    rewrites only those spans (module `Triggers`).
- **The webhook relay** (`runicbabble/discord.py`).
  - `send_as_webhook` covers the identity fill, the per-channel webhook cache
    (hit, adopt-by-name, create), the one recreate-and-retry after
    `NotFoundError`, and the `ForbiddenError` to `None` fallback (module
    `Webhooks`).
  - The listeners `on_message` and `slash_mdj` delete, post and fall back
    (module `Bot`).

How the model is built:

- The chat platform is a `Server` (module `Rest`). It is a bundle of total
  functions that may look at the log of earlier calls. Any behaviour of the
  real platform is one choice of `Server`, including a webhook that someone
  deletes between two calls.
- Every remote call is appended to the log together with the error it raised.
  That log is the effect trace the contracts talk about.
- The process-wide `webhooks` dict is the `cache` of a `Relay` value. Each
  handler takes that value and returns a new one.
- Python's exceptions become values: `Declined` stands for `return None`, and
  `Raised` for an error that leaves the function.
- Modules: `Wrappers` (Option), `Glyphs`, `Emotes`, `Triggers`, `Decimal`
  (the decimal channel id in webhook names), `Rest`, `Webhooks`, `Bot`.

Notes on how the model reads the source:

- `mdj_format` is modelled literally, as the chain of fourteen `str.replace`
  calls (`Glyphs.MdjFormat`). It is then proved equal to a single
  left-to-right pass, and every other property is proved about that pass.
- `\s` in the trigger pattern is the set of characters Python's
  `str.isspace()` accepts (`Triggers.IsWhitespace`).
- The webhook the relay makes and adopts is named `runicbabble-<channel id>`
  (discord.py:80, :86).
- An error from `event.message.delete()` (discord.py:116) leaves the
  handler before anything is posted.
- The table build stops at the first missing emoji name, and the entries
  written before it stay in the table (mdj_emotes.py:34-37).
- The retry after `NotFoundError` executes the old webhook again (see
  Findings).

## Model

| member | source | states |
|---|---|---|
| Glyphs.MdjFormat | runicbabble/formats/mdj_emotes.py:12-20 | `mdj_format` as the fourteen chained two-character `replace` calls in the source's order; folding only shortens the text |
| Glyphs.Glyph | runicbabble/formats/mdj_emotes.py:13-19 | the glyph a base letter folds into is neither a base letter nor an apostrophe, so a folded glyph never starts a new pair |
| Glyphs.MdjFormatIsSinglePass | runicbabble/formats/mdj_emotes.py:12-20 | the fourteen chained `replace` calls, in the source's order, give the same text as one left-to-right pass that folds every base-letter-plus-apostrophe pair |
| Glyphs.MdjFormatPair | runicbabble/formats/mdj_emotes.py:13-19 | a/A, e/E, i/I, o/O, u/U, y/Y followed by `'` become the lower-case á, é, í, ó, ú, ý; w/W followed by `'` becomes U+00B5 |
| Glyphs.MdjFormatKeepsOtherLetters | runicbabble/formats/mdj_emotes.py:13-20 | any other character followed by an apostrophe (for example `b'`) is kept as it is |
| Glyphs.MdjFormatUnchanged | runicbabble/formats/mdj_emotes.py:13-20 | the text comes back unchanged if and only if it holds no base letter followed by an apostrophe |
| Glyphs.MdjFormatLength | runicbabble/formats/mdj_emotes.py:13-20 | the output is shorter than the input by exactly the number of pairs folded |
| Glyphs.MdjFormatIdempotent | runicbabble/formats/mdj_emotes.py:13-20 | applying the mapper a second time changes nothing |
| Emotes.ByName | runicbabble/formats/mdj_emotes.py:32 | the `{e.name: e}` comprehension, built in list order so that a later emoji overwrites an earlier one of the same name; every listed name is a key |
| Emotes.ByNameKeys | runicbabble/formats/mdj_emotes.py:32 | the name-to-emoji dict has exactly the listed emoji names as keys |
| Emotes.ByNameLastWins | runicbabble/formats/mdj_emotes.py:32 | with duplicate names, the last emoji of a name supplies its mention |
| Emotes.LoadKeys | runicbabble/formats/mdj_emotes.py:34-37 | the lookups fail exactly when some required name is missing; on success every key holds its emoji's mention and every other entry is kept; on failure the reported name is the first missing one and every key before it is already written |
| Emotes.InitEmotes | runicbabble/formats/mdj_emotes.py:26-37 | the same for the 37 standard letters followed by the 12 special symbols, looked up in the home server's emoji list |
| Emotes.LoadedTableContents | runicbabble/formats/mdj_emotes.py:27-37 | after a complete build each standard letter `c` maps to the mention of `mdj_<c>`, each special symbol to the mention of `mdj_<suffix>`, and nothing else changes |
| Emotes.EmoteFormat | runicbabble/formats/mdj_emotes.py:41-42 | `mdj_emote_format`: the characters' tokens joined in order; text with no character in the table comes back as it is |
| Emotes.EmoteFormatSymbol | runicbabble/formats/mdj_emotes.py:41-42 | a character in the table becomes its token; any other character is kept |
| Emotes.EmoteFormatConcat | runicbabble/formats/mdj_emotes.py:41-42 | the substitution distributes over concatenation |
| Emotes.EmoteFormatPassThrough | runicbabble/formats/mdj_emotes.py:41-42 | text with no character in the table passes through unchanged |
| Emotes.EmoteFormatEmptyTable | runicbabble/formats/mdj_emotes.py:41-42 | with an empty table the substitution is the identity |
| Triggers.MatchAt | runicbabble/formats/mdj_emotes.py:49 | the pattern matches at a position: not after a backslash, a backtick, `mdj`, one whitespace character, then a closing backtick further on; a match needs at least six characters |
| Triggers.Transform | runicbabble/formats/mdj_emotes.py:46-47 | `handle_mdj`: a span's body through the glyph fold and then the token table; a body with no pair to fold and no character in the table is kept as it is |
| Triggers.Substitute | runicbabble/formats/mdj_emotes.py:53 | `re.sub`: scans left to right, replaces each match by the rewrite of its body and resumes after the closing backtick, copies every other character; its behaviour is stated by the `Substitute…` and `RenderSpan` lemmas |
| Triggers.NextBacktickFirst | runicbabble/formats/mdj_emotes.py:49 | a span's body runs up to the first backtick after `mdj<ws>`: no backtick lies before it |
| Triggers.NextBacktickAt | runicbabble/formats/mdj_emotes.py:49 | conversely, a backtick with none before it (from the body's start) is where the body ends |
| Triggers.Search | runicbabble/formats/mdj_emotes.py:50 | the search finds the leftmost position where the pattern matches, or reports that it matches nowhere |
| Triggers.Render | runicbabble/formats/mdj_emotes.py:45-53 | `render` returns nothing if and only if no position of the message starts an unescaped backtick, `mdj`, one whitespace character, non-backtick text and a closing backtick |
| Triggers.SubstituteCopies | runicbabble/formats/mdj_emotes.py:53 | text in which no span starts is copied unchanged into the result |
| Triggers.SubstituteNoMatch | runicbabble/formats/mdj_emotes.py:53 | a message without a span is returned as it is |
| Triggers.SubstituteShift | runicbabble/formats/mdj_emotes.py:53 | what follows a prefix that does not end in a backslash is rewritten as if the prefix were not there |
| Triggers.RenderSpan | runicbabble/formats/mdj_emotes.py:46-53 | a message made of text in which no span starts (it may hold other inline code, and must not end in a backslash), one span and any remainder renders as that text, then the span's body through `mdj_format` and the token table with the delimiters and `mdj<ws>` dropped, then the remainder rendered on its own |
| Triggers.RenderPlainSpan | runicbabble/formats/mdj_emotes.py:46-53 | the same when the text before the span holds no backtick at all |
| Triggers.InlineCodeBeforeSpan | runicbabble/formats/mdj_emotes.py:46-53 | inline code before a span (``see `x` and `mdj hi` ``) is kept and the span after it is still rendered |
| Triggers.EscapedSpanIgnored | runicbabble/formats/mdj_emotes.py:49-51 | a span whose opening backtick follows a backslash is not rendered |
| Decimal.ToDecimal | runicbabble/discord.py:80 | Python's `str(int(channel))`: non-empty, digits only, and no leading zero unless the id is 0 |
| Decimal.FromToDecimal | runicbabble/discord.py:80 | the decimal text of a channel id reads back as that id |
| Webhooks.HookName | runicbabble/discord.py:80-86 | the name `runicbabble-` followed by the channel id's decimal digits, with no leading zero |
| Webhooks.HookNameInjective | runicbabble/discord.py:80-86 | two channels never share a webhook name, so adoption by name never picks another channel's webhook |
| Webhooks.FillIdentity | runicbabble/discord.py:63-70 | explicit name and avatar are kept; with no user nothing is filled or fetched; only undefined values are filled, from the user object or from one fetch of the user, taking exactly that user's name and avatar; a failed fetch leaves the call |
| Webhooks.FirstNamed | runicbabble/discord.py:79-83 | finds the first incoming webhook with exactly the channel's name, or reports that none exists |
| Webhooks.GetOrCreate | runicbabble/discord.py:72-87 | a hit makes no call; a miss lists the channel's webhooks; an unlistable channel yields no webhook and leaves the cache alone; a webhook obtained is cached for the channel; the cache changes only at that channel |
| Webhooks.ExecuteWithRetry | runicbabble/discord.py:89-107 | one execution; only after `NotFoundError`, one creation and, if that succeeded, caching it and exactly one more execution of the same request; the outcome is read off the last call |
| Webhooks.Deliver | runicbabble/discord.py:72-107 | a hit makes only the calls of the execute block (no listing): execute the cached webhook and, only after `NotFoundError`, create and retry once; a miss lists first, and the webhook the lookup adopted or created is the one executed (execute, and only after `NotFoundError` create and retry once), with every execution going to it under the source's retry, and it is still the cached entry at the end unless the execute block recreated the webhook; a lookup that obtained no webhook ends the send; on a hit, under the source's retry, every execution goes to the cached webhook; every execution posts the request; the cache holds the channel once anything was executed, and is unchanged unless a listing or a creation succeeded |
| Webhooks.SendAsWebhook | runicbabble/discord.py:50-107 | the log only grows; the cache changes only at the channel and keeps it; a message is posted exactly when the last call is a successful execution; `None` exactly when it is a `ForbiddenError` from a webhook call or an unlistable channel; nothing runs after a posted message or any error but an execution's `NotFoundError`; every execution carries the parameters and the explicit or filled identity, including the name and avatar fetched for a user given by id; a hit makes no listing; the cache is unchanged unless a listing or a creation succeeded |
| Webhooks.CacheHitDelivers | runicbabble/discord.py:87-95 | a cache hit makes no listing and no creation: one execution of the cached webhook, cache unchanged |
| Webhooks.CacheHitForbiddenDeclines | runicbabble/discord.py:87-107 | a cache hit whose execution raises `ForbiddenError` returns `None` after that one call, with the cache unchanged |
| Webhooks.UnlistableChannelDeclines | runicbabble/discord.py:74-78 | a miss on a channel whose webhooks cannot be listed returns `None`, creates nothing and leaves the cache unchanged |
| Webhooks.MissAdoptsFirstNamed | runicbabble/discord.py:79-83 | on a miss the first listed incoming webhook named for the channel is cached and used, and nothing is created |
| Webhooks.MissCreatesOne | runicbabble/discord.py:84-86 | on a miss with no such webhook exactly one webhook with the channel's name is created, and cached when the creation succeeds |
| Webhooks.NotFoundRecreatesAndRetriesOnce | runicbabble/discord.py:96-104 | after `NotFoundError` the cache entry is overwritten by the new webhook and exactly one retry follows, on the old local webhook as written; its `NotFoundError` leaves the call |
| Webhooks.ForbiddenEndsSend | runicbabble/discord.py:105-107 | a `ForbiddenError` from any webhook call is the last call, and the send returns `None` |
| Webhooks.StaleRetryNeverRecovers | runicbabble/discord.py:96-104 | as written, a send through a deleted cached webhook never posts, and raises `NotFoundError` whenever the replacement was created |
| Webhooks.FreshRetryRecovers | runicbabble/discord.py:96-104 | retrying with the webhook just created posts the message whenever that webhook works |
| Bot.FinishSend | runicbabble/discord.py:117-137 | after the send: a direct message with the same parameters exactly when the send returned `None`; for the slash command, the acknowledgement exactly when it posted; nothing more when it raised, and that error is the handler's |
| Bot.OnMessage | runicbabble/discord.py:110-119 | no call at all if and only if there is no content or `render` finds no span; otherwise the original is deleted first; a failed delete ends the handler; then come the webhook calls, then a direct message to the channel with the same content exactly when the send returned `None`; every execution posts the rendered content under the author's name and avatar |
| Bot.Repost | runicbabble/discord.py:115-119 | the rendered branch: delete, then the send, then the fallback post exactly when the send returned `None`; the error leaving the handler is the last call's |
| Bot.Post | runicbabble/discord.py:117-119 | the webhook send under the author's identity, then a direct message with the same content exactly when the send returned `None`; every execution carries the content, name and avatar |
| Bot.SendAsUser | runicbabble/discord.py:117 | the call both handlers make, with the user object and no explicit name or avatar: every execution carries the user's own name and avatar; the outcome is read off the last call as for `send_as_webhook` |
| Bot.PostAcknowledged | runicbabble/discord.py:133-137 | for given parameters: the acknowledgement exactly when the send posted, a direct message with the same parameters exactly when it returned `None`, neither when it raised; every execution carries the parameters under the user's name and avatar |
| Bot.SlashMdj | runicbabble/discord.py:128-137 | the image parameters for glyph size 32 are sent under the user's identity; the acknowledgement is sent exactly when the send posted, a direct message with the same parameters exactly when it returned `None`, and neither when it raised |
| Bot.MessageLostOnStaleRetry | runicbabble/discord.py:96-119 | as written, with a deleted cached webhook the handler deletes the original, creates and caches a replacement, executes the deleted webhook twice and raises `NotFoundError`; nothing is posted |
| Bot.MessageRelayedOnFreshRetry | runicbabble/discord.py:96-119 | with the retry on the replacement, the same situation ends with the message posted and no error |

## Left out

- Fetching the home server's emoji list (`fetch_guild_emojis`, mdj_emotes.py:31) and the configured home guild are I/O. The list is an input of `Emotes.InitEmotes`.
- The `emotes` table is a global in the source. Here it is passed in and returned, and the listener takes it as a parameter.
- All logging calls.
- `runicbabble.formats.mdj_image.render` is not part of this model. It is the parameter `image` of `Bot.SlashMdj`.
- The option declarations of the slash command (discord.py:122-127) are left out. That includes the defaults `none` and 8, and the check that `wrap` is one of three choices; `Bot.Wrap` stands for that choice.
- `delete_after=1` on the acknowledgement (discord.py:134) is left out. It is a client-side timer.
- Message parameters other than `content` and `attachment` are left out: components, embeds, `tts` and the mention settings. They are passed through unchanged and nothing depends on them.
- Webhook objects are reduced to their ids, and users to a name and an avatar URL string. `make_avatar_url` is part of the platform client.
- Network errors other than `NotFoundError` and `ForbiddenError` are left out, as are rate limits and HTTP. Any other exception simply leaves the handler, and nothing in the core catches one.
- The check-then-create race on the shared `webhooks` dict between concurrent handlers (discord.py:73-86) is left out. Handlers are modelled one after another, with the cache as explicit state.
- Bot construction, the help command, `on_ready`, start-up, and the configuration loading in `runicbabble/__init__.py` are left out. This is wiring with no behaviour to state.
- Python strings are sequences of code points, and so are Dafny strings here. No normalisation or case folding takes place in the source, and none is modelled.

## Findings

| source | as written | input that shows it | evidently intended | confidence | as-written member | corrected member |
|---|---|---|---|---|---|---|
| runicbabble/discord.py:99 | After `NotFoundError` the code creates a new webhook and caches it, but the retry executes the old local `webhook` again. | A channel whose cached webhook was deleted by someone else: the first execution raises `NotFoundError` and the creation succeeds. The retry then raises `NotFoundError` again. `on_message` has already deleted the original, so the message is lost (`Bot.MessageLostOnStaleRetry`). | Retry through the webhook just created, which then posts the message. | high, not executed | Webhooks.StaleRetryNeverRecovers | Webhooks.FreshRetryRecovers |

`Webhooks.RetryPolicy` selects between the two. `RetryStale` is the code as
written and `RetryFresh` is the corrected retry. Every property of
`Webhooks.SendAsWebhook`, `Bot.OnMessage` and `Bot.SlashMdj` is proved for
both. `Bot.MessageRelayedOnFreshRetry` shows that, with `RetryFresh`, the
message is no longer lost.

=== FILE: bot.dfy ===
/**
  The two entry points of the bot: the message listener `on_message`, which
  replaces a message containing Madouji spans by a webhook post under the
  author's name, and the `/mdj` slash command, which posts a rendered image.

  Each is a function from the relay state to the relay state, with the calls
  it makes appended to the event log; the error that leaves a handler, if
  any, is returned beside the state.
*/
module Bot {
  import opened Wrappers
  import opened Rest
  import opened Triggers
  import opened Webhooks

  /** A guild message as the listener receives it. */
  datatype MessageEvent = MessageEvent(channel: ChannelId, message: MessageId, author: User, content: Option<string>)

  /** The relay state after a handler, and the error that left it, if any. */
  datatype Handled = Handled(relay: Relay, raised: Option<RemoteError>)

  /** The parameters `render` returns: the rewritten text as the message content. */
  function TextParams(text: string): Params
  {
    Params(Some(text), None)
  }

  /** The identity of a post made on a user's behalf: their name and avatar. */
  function Author(u: User): Identity
  {
    Identity(Some(u.username), Some(u.avatarUrl))
  }

  /** The reply to the slash command once the webhook posted: a lone zero-width joiner. */
  const Acknowledgement: string := "\U{200D}"

  // ---------------------------------------------------------------------------
  // Effect traces

  /**
    Webhook calls, then a plain message exactly when they ended in a way the
    send turns into `None`; the plain message goes to `ch` with `params`.
  */
  ghost predicate FallsBack(evs: seq<Event>, ch: ChannelId, params: Params)
  {
    && |evs| >= 1
    && (forall k :: 0 <= k < |evs| - 1 ==> IsWebhookCall(evs[k].call))
    && var last := evs[|evs| - 1];
       && (last.call.CreateMessage? <==> |evs| >= 2 && EndsDeclined(evs[..|evs| - 1]))
       && (last.call.CreateMessage? ==> last.call == CreateMessage(ch, params))
       && (!last.call.CreateMessage? ==> IsWebhookCall(last.call) && !EndsDeclined(evs))
  }

  /**
    Webhook calls, then the acknowledgement exactly when they posted, or a
    plain message exactly when the send returned `None`.
  */
  ghost predicate AcksOrFallsBack(evs: seq<Event>, ch: ChannelId, params: Params)
  {
    && |evs| >= 1
    && (forall k :: 0 <= k < |evs| - 1 ==> IsWebhookCall(evs[k].call))
    && var last := evs[|evs| - 1];
       && (last.call.Respond? <==> |evs| >= 2 && EndsDelivered(evs[..|evs| - 1]))
       && (last.call.Respond? ==> last.call == Respond(Acknowledgement))
       && (last.call.CreateMessage? <==> |evs| >= 2 && EndsDeclined(evs[..|evs| - 1]))
       && (last.call.CreateMessage? ==> last.call == CreateMessage(ch, params))
       && (!last.call.Respond? && !last.call.CreateMessage? ==>
             IsWebhookCall(last.call) && !EndsDelivered(evs) && !EndsDeclined(evs))
  }

  /** Only the last event of a send can end it: the events before it neither post nor decline. */
  lemma NoEarlyEnd(evs: seq<Event>)
    requires OnlyNotFoundRetried(evs)
    ensures |evs| >= 2 ==> !EndsDeclined(evs[..|evs| - 1]) && !EndsDelivered(evs[..|evs| - 1])
  {
    if |evs| >= 2 {
      assert evs[..|evs| - 1][|evs| - 2] == evs[|evs| - 2];
    }
  }

  /** A send's events followed by one more call of another kind. */
  lemma {:induction false} AfterSend(web: seq<Event>, e: Event, params: Params, who: Identity)
    requires |web| >= 1 && WebhookCallsOnly(web) && ExecutesCarry(web, params, who)
    requires !IsWebhookCall(e.call)
    ensures (web + [e])[..|web + [e]| - 1] == web
    ensures forall k :: 0 <= k < |web + [e]| - 1 ==> IsWebhookCall((web + [e])[k].call)
    ensures ExecutesCarry(web + [e], params, who)
  {
    assert (web + [e])[..|web|] == web;
    assert forall k :: 0 <= k < |web| ==> (web + [e])[k] == web[k];
  }

  /**
    The end of `send_as_webhook`'s caller: a plain message when the send
    returned `None`, the acknowledgement (if `ack`) when it posted.
  */
  function FinishSend(server: Server, st: Relay, sent: Sent, ch: ChannelId, params: Params, ack: bool): (r: Handled)
    requires st.log <= sent.relay.log
    requires EndsAsReported(sent.outcome, Since(st, sent.relay))
    requires OnlyNotFoundRetried(Since(st, sent.relay)) && WebhookCallsOnly(Since(st, sent.relay))
    ensures st.log <= sent.relay.log <= r.relay.log
    ensures r.relay.cache == sent.relay.cache
    ensures |Since(st, r.relay)| >= 1
    ensures r.raised == Since(st, r.relay)[|Since(st, r.relay)| - 1].failed
    ensures ack ==> AcksOrFallsBack(Since(st, r.relay), ch, params)
    ensures !ack ==> FallsBack(Since(st, r.relay), ch, params)
    ensures forall who :: ExecutesCarry(Since(st, sent.relay), params, who) ==> ExecutesCarry(Since(st, r.relay), params, who)
  {
    var web := Since(st, sent.relay);
    NoEarlyEnd(web);
    match sent.outcome
    case Delivered(_) =>
      if ack then
        var acked := server.respond(sent.relay.log, Acknowledgement);
        var st1 := Log(sent.relay, Respond(Acknowledgement), acked);
        var e := Event(Respond(Acknowledgement), Failure(acked));
        assert Since(st, st1) == web + [e];
        AfterSendAll(web, e, params);
        Handled(st1, Failure(acked))
      else
        Handled(sent.relay, None)
    case Declined =>
      var posted := server.createMessage(sent.relay.log, ch, params);
      var st1 := Log(sent.relay, CreateMessage(ch, params), posted);
      var e := Event(CreateMessage(ch, params), Failure(posted));
      assert Since(st, st1) == web + [e];
      AfterSendAll(web, e, params);
      Handled(st1, Failure(posted))
    case Raised(err) => Handled(sent.relay, Some(err))
  }

  /** `AfterSend` for every identity at once. */
  lemma AfterSendAll(web: seq<Event>, e: Event, params: Params)
    requires |web| >= 1 && WebhookCallsOnly(web)
    requires !IsWebhookCall(e.call)
    ensures (web + [e])[..|web + [e]| - 1] == web
    ensures forall k :: 0 <= k < |web + [e]| - 1 ==> IsWebhookCall((web + [e])[k].call)
    ensures forall who :: ExecutesCarry(web, params, who) ==> ExecutesCarry(web + [e], params, who)
  {
    forall who | ExecutesCarry(web, params, who)
      ensures ExecutesCarry(web + [e], params, who)
    {
      AfterSend(web, e, params, who);
    }
    assert (web + [e])[..|web|] == web;
  }

  // ---------------------------------------------------------------------------
  // `on_message`

  /** The message has text and that text holds at least one Madouji span. */
  predicate Rendered(table: map<char, string>, ev: MessageEvent)
  {
    ev.content.Some? && Render(table, ev.content.value).Some?
  }

  /**
    `on_message`: a message with Madouji spans is deleted and posted again,
    rewritten, through the channel's webhook under the author's name and
    avatar; when the webhook send returns `None` the bot posts the rewritten
    text itself.
  */
  function OnMessage(server: Server, table: map<char, string>, st: Relay, ev: MessageEvent, policy: RetryPolicy): (r: Handled)
    ensures st.log <= r.relay.log
    ensures CacheGrows(st.cache, r.relay.cache, ev.channel)
    ensures !Rendered(table, ev) <==> Since(st, r.relay) == []
    ensures !Rendered(table, ev) ==> r == Handled(st, None)
    ensures Rendered(table, ev) ==>
      var evs := Since(st, r.relay);
      var params := TextParams(Render(table, ev.content.value).value);
      && |evs| >= 1
      && evs[0].call == DeleteMessage(ev.message)
      && r.raised == evs[|evs| - 1].failed
      && (evs[0].failed.Some? ==> |evs| == 1)
      && (evs[0].failed.None? ==> |evs| >= 2 && FallsBack(evs[1..], ev.channel, params))
      && ExecutesCarry(evs, params, Author(ev.author))
  {
    if !Rendered(table, ev) then Handled(st, None)
    else Repost(server, st, ev, TextParams(Render(table, ev.content.value).value), policy)
  }

  /**
    The trace of the rendered branch: the deletion first; when it fails, nothing
    else; when it succeeds, the posting with its fallback. The raised error is
    the last event's, and every execution carries `params` under `who`.
  */
  ghost predicate Reposted(evs: seq<Event>, raised: Option<RemoteError>, message: MessageId, ch: ChannelId, params: Params, who: Identity)
  {
    && |evs| >= 1
    && evs[0].call == DeleteMessage(message)
    && raised == evs[|evs| - 1].failed
    && (evs[0].failed.Some? ==> |evs| == 1)
    && (evs[0].failed.None? ==> |evs| >= 2 && FallsBack(evs[1..], ch, params))
    && ExecutesCarry(evs, params, who)
  }

  /** The rendered branch of `on_message`: delete the original, then post `params` in its place. */
  function Repost(server: Server, st: Relay, ev: MessageEvent, params: Params, policy: RetryPolicy): (r: Handled)
    ensures st.log <= r.relay.log
    ensures CacheGrows(st.cache, r.relay.cache, ev.channel)
    ensures Reposted(Since(st, r.relay), r.raised, ev.message, ev.channel, params, Author(ev.author))
  {
    var deleted := server.deleteMessage(st.log, ev.message);
    var st1 := Log(st, DeleteMessage(ev.message), deleted);
    var d := Event(DeleteMessage(ev.message), Failure(deleted));
    if deleted.Err? then
      DeletionFailedTrace(st, st1, d, ch := ev.channel, params := params, who := Author(ev.author));
      Handled(st1, d.failed)
    else
      var r := Post(server, st1, ev.channel, ev.author, params, policy);
      AfterDeletionTrace(st, st1, r.relay, r.raised, d, ev.channel, params, Author(ev.author));
      r
  }

  /** The posting half of `on_message`: through the webhook under the author's identity, else by the bot. */
  function Post(server: Server, st: Relay, ch: ChannelId, author: User, params: Params, policy: RetryPolicy): (r: Handled)
    ensures st.log <= r.relay.log
    ensures CacheGrows(st.cache, r.relay.cache, ch)
    ensures var evs := Since(st, r.relay);
      && |evs| >= 1
      && r.raised == evs[|evs| - 1].failed
      && FallsBack(evs, ch, params)
      && ExecutesCarry(evs, params, Author(author))
  {
    var sent := SendAsUser(server, st, ch, params, author, policy);
    FinishSend(server, st, sent, ch, params, false)
  }

  /** `send_as_webhook(channel, user=user, **params)`, the call both handlers make: the user object given, no explicit name or avatar. */
  function SendAsUser(server: Server, st: Relay, ch: ChannelId, params: Params, user: User, policy: RetryPolicy): (r: Sent)
    ensures st.log <= r.relay.log
    ensures CacheGrows(st.cache, r.relay.cache, ch)
    ensures EndsAsReported(r.outcome, Since(st, r.relay))
    ensures OnlyNotFoundRetried(Since(st, r.relay)) && WebhookCallsOnly(Since(st, r.relay))
    ensures ExecutesCarry(Since(st, r.relay), params, Author(user))
  {
    assert KnownFill(Some(Known(user)), Identity(None, None)) == Author(user);
    SendAsWebhook(server, st, ch, params, Some(Known(user)), Identity(None, None), policy)
  }

  /** A failed deletion is the whole trace. */
  lemma DeletionFailedTrace(st: Relay, st1: Relay, d: Event, ch: ChannelId, params: Params, who: Identity)
    requires d.call.DeleteMessage? && d.failed.Some? && st1.log == st.log + [d]
    ensures st.log <= st1.log
    ensures Reposted(Since(st, st1), d.failed, d.call.message, ch, params, who)
  {
    assert Since(st, st1) == [d];
  }

  /** A successful deletion followed by the posting. */
  lemma AfterDeletionTrace(st: Relay, st1: Relay, end: Relay, raised: Option<RemoteError>, d: Event, ch: ChannelId, params: Params, who: Identity)
    requires d.call.DeleteMessage? && d.failed.None? && st1.log == st.log + [d] && st1.log <= end.log
    requires FallsBack(Since(st1, end), ch, params) && ExecutesCarry(Since(st1, end), params, who)
    requires raised == Since(st1, end)[|Since(st1, end)| - 1].failed
    ensures st.log <= end.log
    ensures Reposted(Since(st, end), raised, d.call.message, ch, params, who)
  {
    assert Since(st, st1) == [d];
    SinceSplit(st, st1, end);
    AfterDeletion(d, Since(st1, end), params, who);
  }

  /** A deletion in front of a trace: the rest is the trace, and the executions are the same. */
  lemma AfterDeletion(d: Event, evs: seq<Event>, params: Params, who: Identity)
    requires d.call.DeleteMessage? && |evs| >= 1 && ExecutesCarry(evs, params, who)
    ensures ([d] + evs)[1..] == evs && ([d] + evs)[|[d] + evs| - 1] == evs[|evs| - 1]
    ensures ExecutesCarry([d] + evs, params, who)
  {
    assert forall k :: 1 <= k < |[d] + evs| ==> ([d] + evs)[k] == evs[k - 1];
  }

  // ---------------------------------------------------------------------------
  // `/mdj`

  /** The `wrap` option of the slash command: `none`, `flow` or `force`. */
  datatype Wrap = NoWrap | Flow | Force

  /** The glyph size the slash command asks the image renderer for. */
  const GlyphSize: nat := 32

  /** The image renderer: text, glyph size, wrapping, line width to message parameters. */
  type ImageRenderer = (string, nat, Wrap, int) -> Params

  /**
    `slash_mdj`: the content is rendered as an image and posted through the
    channel's webhook under the invoking user's name; a posted message is
    acknowledged with an empty reply, and when the send returns `None` the
    bot posts the image itself.
  */
  function SlashMdj(server: Server, st: Relay, ch: ChannelId, user: User, content: string, wrap: Wrap, lineWidth: int, image: ImageRenderer, policy: RetryPolicy): (r: Handled)
    ensures st.log <= r.relay.log
    ensures CacheGrows(st.cache, r.relay.cache, ch)
    ensures var evs := Since(st, r.relay);
      && |evs| >= 1
      && r.raised == evs[|evs| - 1].failed
      && AcksOrFallsBack(evs, ch, image(content, GlyphSize, wrap, lineWidth))
      && ExecutesCarry(evs, image(content, GlyphSize, wrap, lineWidth), Author(user))
  {
    PostAcknowledged(server, st, ch, user, image(content, GlyphSize, wrap, lineWidth), policy)
  }

  /** The send of `slash_mdj` for given parameters: through the webhook under the user's identity, then the acknowledgement or the bot's own post. */
  function PostAcknowledged(server: Server, st: Relay, ch: ChannelId, user: User, params: Params, policy: RetryPolicy): (r: Handled)
    ensures st.log <= r.relay.log
    ensures CacheGrows(st.cache, r.relay.cache, ch)
    ensures var evs := Since(st, r.relay);
      && |evs| >= 1
      && r.raised == evs[|evs| - 1].failed
      && AcksOrFallsBack(evs, ch, params)
      && ExecutesCarry(evs, params, Author(user))
  {
    var sent := SendAsUser(server, st, ch, params, user, policy);
    var r := FinishSend(server, st, sent, ch, params, true);
    assert ExecutesCarry(Since(st, r.relay), params, Author(user));
    r
  }

  // ---------------------------------------------------------------------------
  // A deleted webhook and the message it was to carry

  /** Creating the channel's webhook always succeeds, with `made`. */
  ghost predicate Recreates(server: Server, ch: ChannelId, made: WebhookId)
  {
    forall log :: server.createHook(log, ch, HookName(ch)) == Ok(made)
  }

  /** Every execution of `made` posts. */
  ghost predicate Works(server: Server, made: WebhookId)
  {
    forall log, q :: server.execute(log, made, q).Ok?
  }

  /**
    As written: when the cached webhook was deleted, the original message is
    deleted, the replacement webhook is created and cached, the deleted one is
    executed a second time, and `NotFoundError` leaves the handler, so the
    message is gone and nothing was posted in its place.
  */
  lemma MessageLostOnStaleRetry(server: Server, st: Relay, ev: MessageEvent, params: Params, made: WebhookId)
    requires ev.channel in st.cache && Gone(server, st.cache[ev.channel])
    requires server.deleteMessage(st.log, ev.message).Ok?
    requires Recreates(server, ev.channel, made)
    ensures var r := Repost(server, st, ev, params, RetryStale);
      var req := Request(params, Some(ev.author.username), Some(ev.author.avatarUrl));
      && r.raised == Some(NotFoundError)
      && Since(st, r.relay) == [
           Event(DeleteMessage(ev.message), None),
           Event(Execute(st.cache[ev.channel], req), Some(NotFoundError)),
           Event(CreateHook(ev.channel, HookName(ev.channel)), None),
           Event(Execute(st.cache[ev.channel], req), Some(NotFoundError))]
      && r.relay.cache == st.cache[ev.channel := made]
  {
    var st1 := Log(st, DeleteMessage(ev.message), server.deleteMessage(st.log, ev.message));
    var req := Request(params, Some(ev.author.username), Some(ev.author.avatarUrl));
    var sent := ExecuteWithRetry(server, st1, ev.channel, st.cache[ev.channel], req, RetryStale);
    assert SendAsUser(server, st1, ev.channel, params, ev.author, RetryStale) == sent;
  }

  /**
    Corrected: retrying with the replacement webhook posts the message in
    place of the deleted original, and nothing leaves the handler.
  */
  lemma MessageRelayedOnFreshRetry(server: Server, st: Relay, ev: MessageEvent, params: Params, made: WebhookId)
    requires ev.channel in st.cache && Gone(server, st.cache[ev.channel])
    requires server.deleteMessage(st.log, ev.message).Ok?
    requires Recreates(server, ev.channel, made) && Works(server, made)
    ensures var r := Repost(server, st, ev, params, RetryFresh);
      var req := Request(params, Some(ev.author.username), Some(ev.author.avatarUrl));
      && r.raised == None
      && Since(st, r.relay) == [
           Event(DeleteMessage(ev.message), None),
           Event(Execute(st.cache[ev.channel], req), Some(NotFoundError)),
           Event(CreateHook(ev.channel, HookName(ev.channel)), None),
           Event(Execute(made, req), None)]
      && r.relay.cache == st.cache[ev.channel := made]
  {
    var st1 := Log(st, DeleteMessage(ev.message), server.deleteMessage(st.log, ev.message));
    var req := Request(params, Some(ev.author.username), Some(ev.author.avatarUrl));
    var sent := ExecuteWithRetry(server, st1, ev.channel, st.cache[ev.channel], req, RetryFresh);
    assert SendAsUser(server, st1, ev.channel, params, ev.author, RetryFresh) == sent;
  }
}

=== FILE: decimal.dfy ===
/**
  Python's `str(int(channel))` for the non-negative channel ids: the decimal
  text used in webhook names, and its inverse.
*/
module Decimal {

  predicate IsDigit(c: char)
  {
    '0' <= c <= '9'
  }

  function DigitChar(d: nat): (c: char)
    requires d < 10
    ensures IsDigit(c)
  {
    (('0' as int) + d) as char
  }

  function DigitValue(c: char): (d: nat)
    requires IsDigit(c)
    ensures d < 10
  {
    (c as int) - ('0' as int)
  }

  /** Decimal text of `n`, without leading zeros. */
  function ToDecimal(n: nat): (r: string)
    ensures |r| >= 1
    ensures forall i :: 0 <= i < |r| ==> IsDigit(r[i])
    ensures |r| > 1 ==> r[0] != '0'
    ensures r[0] == '0' <==> n == 0
  {
    if n < 10 then [DigitChar(n)] else ToDecimal(n / 10) + [DigitChar(n % 10)]
  }

  /** The value of a string of digits. */
  function FromDecimal(s: string): nat
    requires forall i :: 0 <= i < |s| ==> IsDigit(s[i])
  {
    if s == [] then 0 else FromDecimal(s[..|s| - 1]) * 10 + DigitValue(s[|s| - 1])
  }

  /** Reading back the decimal text gives the number. */
  lemma {:induction false} FromToDecimal(n: nat)
    ensures FromDecimal(ToDecimal(n)) == n
  {
    var r := ToDecimal(n);
    if n >= 10 {
      FromToDecimal(n / 10);
      assert r[..|r| - 1] == ToDecimal(n / 10);
    }
  }

  /** Distinct numbers have distinct decimal texts. */
  lemma ToDecimalInjective(a: nat, b: nat)
    ensures ToDecimal(a) == ToDecimal(b) ==> a == b
  {
    FromToDecimal(a);
    FromToDecimal(b);
  }
}

=== FILE: emotes.dfy ===
/**
  The glyph token table (`emotes`), its builder `init_emotes`, and the
  per-character substitution `mdj_emote_format`.

  The home server's emoji list, which the source fetches over the network, is
  an input here; the process-wide table is passed in and returned.
*/
module Emotes {
  import opened Wrappers

  /** A custom emoji of the home server: its name and its mention markup. */
  datatype Emoji = Emoji(name: string, mention: string)

  /** The letters whose emoji is named `mdj_<letter>`, in the source's order. */
  const Standard: string := "uoaeyiwUOAEYIWpbtdkgmnqjrlRfFsSxhvVzZ"

  /** The symbols whose emoji name carries a suffix of its own. */
  const Specials: map<char, string> := map[
    '\U{FA}' := "u_", '\U{F3}' := "o_", '\U{E1}' := "a_", '\U{E9}' := "e_",
    '\U{FD}' := "y_", '\U{ED}' := "i_", '\U{B5}' := "w_",
    ' ' := "space", '.' := "dot", ',' := "comma", '?' := "question", '#' := "direction"]

  /** The keys of `Specials` in the order the dict literal inserts them. */
  const SpecialKeys: string := "\U{FA}\U{F3}\U{E1}\U{E9}\U{FD}\U{ED}\U{B5} .,?#"

  /** Every symbol the builder looks up, in lookup order. */
  const RequiredKeys: string := Standard + SpecialKeys

  function MdjName(suffix: string): string
  {
    "mdj_" + suffix
  }

  /** The emoji name the builder looks up for a symbol. */
  function TokenName(c: char): string
  {
    if c in Specials then MdjName(Specials[c]) else MdjName([c])
  }

  /** No later emoji in the list has the same name as the one at `i`. */
  predicate LastWithName(home: seq<Emoji>, i: int)
    requires 0 <= i < |home|
  {
    forall j :: i < j < |home| ==> home[j].name != home[i].name
  }

  /** The dict comprehension `{e.name: e.mention for e in home}`. */
  function ByName(home: seq<Emoji>): (r: map<string, string>)
    ensures forall i :: 0 <= i < |home| ==> home[i].name in r
  {
    if home == [] then map[]
    else ByName(home[..|home| - 1])[home[|home| - 1].name := home[|home| - 1].mention]
  }

  /** The keys of the comprehension are exactly the listed names. */
  lemma {:induction false} ByNameKeys(home: seq<Emoji>)
    ensures forall i :: 0 <= i < |home| ==> home[i].name in ByName(home)
    ensures forall n :: n in ByName(home) ==> exists i :: 0 <= i < |home| && home[i].name == n
  {
    if home != [] {
      var init := home[..|home| - 1];
      var last := home[|home| - 1];
      ByNameKeys(init);
      assert ByName(home) == ByName(init)[last.name := last.mention];
      forall i | 0 <= i < |home|
        ensures home[i].name in ByName(home)
      {
        if i < |init| {
          assert init[i] == home[i];
        }
      }
      forall n | n in ByName(home)
        ensures exists i :: 0 <= i < |home| && home[i].name == n
      {
        if n != last.name {
          var i :| 0 <= i < |init| && init[i].name == n;
          assert home[i] == init[i];
        }
      }
    }
  }

  /** With duplicate names, the mention of the last emoji of that name wins. */
  lemma {:induction false} ByNameLastWins(home: seq<Emoji>)
    ensures forall i :: 0 <= i < |home| && LastWithName(home, i) ==>
      home[i].name in ByName(home) && ByName(home)[home[i].name] == home[i].mention
  {
    ByNameKeys(home);
    if home != [] {
      var init := home[..|home| - 1];
      var last := home[|home| - 1];
      ByNameLastWins(init);
      assert ByName(home) == ByName(init)[last.name := last.mention];
      forall i | 0 <= i < |home| && LastWithName(home, i)
        ensures ByName(home)[home[i].name] == home[i].mention
      {
        if i < |init| {
          assert init[i] == home[i];
          assert home[i].name != last.name;
          forall j | i < j < |init|
            ensures init[j].name != init[i].name
          {
            assert init[j] == home[j];
          }
          assert LastWithName(init, i);
        }
      }
    }
  }

  /**
    The table after the lookups for `keys` succeeded: each of those symbols
    holds the mention of its emoji, and every other symbol keeps its entry (or
    its absence) from `prior`.
  */
  predicate Loaded(table: map<char, string>, prior: map<char, string>, byName: map<string, string>, keys: string)
  {
    && (forall k :: 0 <= k < |keys| ==>
          && TokenName(keys[k]) in byName
          && keys[k] in table
          && table[keys[k]] == byName[TokenName(keys[k])])
    && (forall c :: c !in keys ==>
          && (c in table <==> c in prior)
          && (c in table ==> table[c] == prior[c]))
  }

  /**
    Looks up the emoji name of each of `keys`, in order, writing each mention
    into the table; stops at the first name that is missing.
  */
  method LoadKeys(prior: map<char, string>, byName: map<string, string>, keys: string)
    returns (table: map<char, string>, missing: Option<string>)
    ensures missing.None? <==> forall k :: 0 <= k < |keys| ==> TokenName(keys[k]) in byName
    ensures missing.None? ==> Loaded(table, prior, byName, keys)
    ensures missing.Some? ==>
      exists f :: 0 <= f < |keys|
        && missing.value == TokenName(keys[f])
        && missing.value !in byName
        && Loaded(table, prior, byName, keys[..f])
  {
    table := prior;
    var k := 0;
    while k < |keys|
      invariant 0 <= k <= |keys|
      invariant Loaded(table, prior, byName, keys[..k])
    {
      var c := keys[k];
      var name := TokenName(c);
      if name !in byName {
        missing := Some(name);
        return;
      }
      table := table[c := byName[name]];
      assert keys[..k + 1] == keys[..k] + [c];
      k := k + 1;
    }
    assert keys[..k] == keys;
    missing := None;
  }

  /**
    `init_emotes`: looks up every required emoji name in the home server's
    list, standard letters first and then the special symbols, and writes each
    mention into the table. The first missing name stops the build (the
    source's `KeyError`); what was written before it stays in the table.
  */
  method InitEmotes(prior: map<char, string>, home: seq<Emoji>) returns (table: map<char, string>, missing: Option<string>)
    ensures missing.None? <==> forall k :: 0 <= k < |RequiredKeys| ==> TokenName(RequiredKeys[k]) in ByName(home)
    ensures missing.None? ==> Loaded(table, prior, ByName(home), RequiredKeys)
    ensures missing.Some? ==>
      exists f :: 0 <= f < |RequiredKeys|
        && missing.value == TokenName(RequiredKeys[f])
        && missing.value !in ByName(home)
        && Loaded(table, prior, ByName(home), RequiredKeys[..f])
  {
    table, missing := LoadKeys(prior, ByName(home), RequiredKeys);
  }

  lemma SpecialKeysAreSpecials()
    ensures forall c :: c in Specials <==> c in SpecialKeys
  {
  }

  lemma StandardIsNotSpecial()
    ensures forall i :: 0 <= i < |Standard| ==> Standard[i] !in Specials
  {
  }

  /**
    A complete build maps each standard letter `c` to the mention of `mdj_<c>`
    and each special symbol to the mention of `mdj_<suffix>`; nothing else changes.
  */
  lemma LoadedTableContents(table: map<char, string>, prior: map<char, string>, byName: map<string, string>)
    requires Loaded(table, prior, byName, RequiredKeys)
    ensures forall i :: 0 <= i < |Standard| ==>
      && "mdj_" + [Standard[i]] in byName
      && Standard[i] in table && table[Standard[i]] == byName["mdj_" + [Standard[i]]]
    ensures forall c :: c in Specials ==>
      && "mdj_" + Specials[c] in byName
      && c in table && table[c] == byName["mdj_" + Specials[c]]
    ensures forall c :: c !in Standard && c !in Specials ==>
      && (c in table <==> c in prior)
      && (c in table ==> table[c] == prior[c])
  {
    StandardIsNotSpecial();
    SpecialKeysAreSpecials();
    forall i | 0 <= i < |Standard|
      ensures "mdj_" + [Standard[i]] in byName && Standard[i] in table && table[Standard[i]] == byName["mdj_" + [Standard[i]]]
    {
      assert RequiredKeys[i] == Standard[i];
    }
    forall c | c in Specials
      ensures "mdj_" + Specials[c] in byName && c in table && table[c] == byName["mdj_" + Specials[c]]
    {
      var j :| 0 <= j < |SpecialKeys| && SpecialKeys[j] == c;
      assert RequiredKeys[|Standard| + j] == c;
    }
    forall c | c !in Standard && c !in Specials
      ensures c !in RequiredKeys
    {
    }
  }

  // ---------------------------------------------------------------------------
  // `mdj_emote_format`

  /** The token for one symbol: its table entry, or the symbol itself. */
  function Token(table: map<char, string>, c: char): string
  {
    if c in table then table[c] else [c]
  }

  /** `mdj_emote_format`: each symbol replaced by its token. */
  function EmoteFormat(table: map<char, string>, s: string): (r: string)
    ensures (forall i :: 0 <= i < |s| ==> s[i] !in table) ==> r == s
  {
    if s == [] then [] else Token(table, s[0]) + EmoteFormat(table, s[1..])
  }

  /** Substitution works symbol by symbol, so it distributes over concatenation. */
  lemma {:induction false} EmoteFormatConcat(table: map<char, string>, a: string, b: string)
    ensures EmoteFormat(table, a + b) == EmoteFormat(table, a) + EmoteFormat(table, b)
  {
    if a != [] {
      calc {
        EmoteFormat(table, a + b);
        { assert (a + b)[0] == a[0]; assert (a + b)[1..] == a[1..] + b; }
        Token(table, a[0]) + EmoteFormat(table, a[1..] + b);
        { EmoteFormatConcat(table, a[1..], b); }
        Token(table, a[0]) + (EmoteFormat(table, a[1..]) + EmoteFormat(table, b));
        (Token(table, a[0]) + EmoteFormat(table, a[1..])) + EmoteFormat(table, b);
      }
    } else {
      assert a + b == b;
    }
  }

  /** A symbol in the table becomes its token; any other symbol is kept. */
  lemma EmoteFormatSymbol(table: map<char, string>, c: char)
    ensures c in table ==> EmoteFormat(table, [c]) == table[c]
    ensures c !in table ==> EmoteFormat(table, [c]) == [c]
  {
    assert [c][1..] == [];
  }

  /** Text none of whose symbols is in the table passes through unchanged. */
  lemma {:induction false} EmoteFormatPassThrough(table: map<char, string>, s: string)
    requires forall i :: 0 <= i < |s| ==> s[i] !in table
    ensures EmoteFormat(table, s) == s
  {
    if s != [] {
      EmoteFormatPassThrough(table, s[1..]);
    }
  }

  /** With an empty table the substitution is the identity. */
  lemma EmoteFormatEmptyTable(s: string)
    ensures EmoteFormat(map[], s) == s
  {
    EmoteFormatPassThrough(map[], s);
  }
}

=== FILE: glyphs.dfy ===
/**
  The Madouji glyph mapper (`mdj_format`): a base letter followed by an ASCII
  apostrophe is folded into one accented glyph.

  The source writes this as a chain of fourteen `str.replace` calls. `MdjFormat`
  models that chain literally; `Compose` is a single left-to-right pass, and
  `MdjFormatIsSinglePass` proves the two agree, so every other property is
  proved once, about the single pass.
*/
module Glyphs {

  const Apostrophe: char := '\''

  /** The order in which the source applies its replacements. */
  const ChainOrder: string := "aAeEiIoOuUyYwW"

  /** The letters that combine with a following apostrophe. */
  const BaseLetters: set<char> := {'a', 'A', 'e', 'E', 'i', 'I', 'o', 'O', 'u', 'U', 'y', 'Y', 'w', 'W'}

  /** The accented glyph of a base letter; upper case letters give the lower case glyph. */
  function Glyph(c: char): (g: char)
    requires c in BaseLetters
    ensures g !in BaseLetters && g != Apostrophe
  {
    if c == 'a' || c == 'A' then '\U{E1}'
    else if c == 'e' || c == 'E' then '\U{E9}'
    else if c == 'i' || c == 'I' then '\U{ED}'
    else if c == 'o' || c == 'O' then '\U{F3}'
    else if c == 'u' || c == 'U' then '\U{FA}'
    else if c == 'y' || c == 'Y' then '\U{FD}'
    else '\U{B5}'
  }

  /** Python's `s.replace(x + "'", g)`: every pair of `x` and an apostrophe, leftmost first and not overlapping, becomes `g`. */
  function ReplacePair(s: string, x: char, g: char): string
    decreases |s|
  {
    if |s| < 2 then s
    else if s[0] == x && s[1] == Apostrophe then [g] + ReplacePair(s[2..], x, g)
    else [s[0]] + ReplacePair(s[1..], x, g)
  }

  /** The replacement chain, one `replace(x + "'", Glyph(x))` per letter of `order`. */
  function Chain(s: string, order: string): string
    requires forall k :: 0 <= k < |order| ==> order[k] in BaseLetters
    decreases |order|
  {
    if order == [] then s
    else Chain(ReplacePair(s, order[0], Glyph(order[0])), order[1..])
  }

  /** `mdj_format` as written in the source. */
  function MdjFormat(s: string): (r: string)
    ensures |r| <= |s|
  {
    ChainOrderInBase();
    ChainShortens(s, ChainOrder);
    Chain(s, ChainOrder)
  }

  /** A replacement never lengthens the text. */
  lemma {:induction false} ReplacePairShortens(s: string, x: char, g: char)
    ensures |ReplacePair(s, x, g)| <= |s|
    decreases |s|
  {
    if |s| >= 2 {
      if s[0] == x && s[1] == Apostrophe {
        ReplacePairShortens(s[2..], x, g);
      } else {
        ReplacePairShortens(s[1..], x, g);
      }
    }
  }

  /** Nor does a chain of them. */
  lemma {:induction false} ChainShortens(s: string, order: string)
    requires forall k :: 0 <= k < |order| ==> order[k] in BaseLetters
    ensures |Chain(s, order)| <= |s|
    decreases |order|
  {
    if order != [] {
      var t := ReplacePair(s, order[0], Glyph(order[0]));
      ReplacePairShortens(s, order[0], Glyph(order[0]));
      ChainShortens(t, order[1..]);
    }
  }

  /** A pair to fold starts at `i`: a base letter followed by an apostrophe. */
  predicate PairAt(s: string, i: int)
  {
    0 <= i && i + 1 < |s| && s[i] in BaseLetters && s[i + 1] == Apostrophe
  }

  predicate NoPairs(s: string)
  {
    forall i :: 0 <= i < |s| ==> !PairAt(s, i)
  }

  /** Number of positions where a pair starts. */
  function PairCount(s: string): nat
  {
    if |s| < 2 then 0
    else (if PairAt(s, 0) then 1 else 0) + PairCount(s[1..])
  }

  /** One left-to-right pass folding the pairs whose letter lies in `letters`. */
  function FoldLetters(s: string, letters: set<char>): string
    requires letters <= BaseLetters
  {
    if s == [] then []
    else if |s| >= 2 && s[0] in letters && s[1] == Apostrophe then [Glyph(s[0])] + FoldLetters(s[2..], letters)
    else [s[0]] + FoldLetters(s[1..], letters)
  }

  /** The single-pass reading of `mdj_format`. */
  function Compose(s: string): string
  {
    FoldLetters(s, BaseLetters)
  }

  // ---------------------------------------------------------------------------
  // The replacement chain is a single pass.

  lemma {:induction false} FoldNothing(s: string)
    ensures FoldLetters(s, {}) == s
  {
    if s != [] {
      FoldNothing(s[1..]);
    }
  }

  /** A folded string starts with an apostrophe exactly when the input does. */
  lemma {:induction false} FoldHead(s: string, letters: set<char>)
    requires letters <= BaseLetters
    ensures s != [] <==> FoldLetters(s, letters) != []
    ensures s != [] ==> (FoldLetters(s, letters)[0] == Apostrophe <==> s[0] == Apostrophe)
  {
  }

  /** One more `replace` in the chain folds one more letter. */
  lemma {:induction false} ReplaceFoldsOneMore(s: string, letters: set<char>, x: char)
    requires letters <= BaseLetters && x in BaseLetters
    ensures ReplacePair(FoldLetters(s, letters), x, Glyph(x)) == FoldLetters(s, letters + {x})
    decreases |s|
  {
    var g := Glyph(x);
    var f := FoldLetters(s, letters);
    if s == [] {
    } else if |s| >= 2 && s[0] in letters && s[1] == Apostrophe {
      ReplaceFoldsOneMore(s[2..], letters, x);
      assert f == [Glyph(s[0])] + FoldLetters(s[2..], letters);
      assert f[1..] == FoldLetters(s[2..], letters);
    } else if |s| >= 2 && s[0] == x && s[1] == Apostrophe {
      ReplaceFoldsOneMore(s[2..], letters, x);
      assert FoldLetters(s[1..], letters) == [Apostrophe] + FoldLetters(s[2..], letters);
      assert f == [x, Apostrophe] + FoldLetters(s[2..], letters);
      assert f[2..] == FoldLetters(s[2..], letters);
    } else {
      ReplaceFoldsOneMore(s[1..], letters, x);
      assert f == [s[0]] + FoldLetters(s[1..], letters);
      FoldHead(s[1..], letters);
      if |f| >= 2 {
        assert f[1] == FoldLetters(s[1..], letters)[0];
      }
      assert f[1..] == FoldLetters(s[1..], letters);
    }
  }

  /** The letters a replacement order folds. */
  function Letters(order: string): (r: set<char>)
    ensures forall c :: c in r <==> c in order
  {
    if order == [] then {} else {order[0]} + Letters(order[1..])
  }

  lemma {:induction false} ChainFolds(s: string, letters: set<char>, order: string)
    requires letters <= BaseLetters
    requires forall k :: 0 <= k < |order| ==> order[k] in BaseLetters
    ensures Chain(FoldLetters(s, letters), order) == FoldLetters(s, letters + Letters(order))
    decreases |order|
  {
    if order == [] {
      assert letters + Letters(order) == letters;
    } else {
      ReplaceFoldsOneMore(s, letters, order[0]);
      ChainFolds(s, letters + {order[0]}, order[1..]);
      assert letters + {order[0]} + Letters(order[1..]) == letters + Letters(order);
    }
  }

  /** Every letter of the chain is a base letter. */
  lemma ChainOrderInBase()
    ensures forall k :: 0 <= k < |ChainOrder| ==> ChainOrder[k] in BaseLetters
  {
  }

  /** The chain names every base letter. */
  lemma ChainOrderCoversBase()
    ensures {} + Letters(ChainOrder) == BaseLetters
  {
  }

  /** The fourteen chained replacements are one left-to-right fold of all base letters. */
  lemma MdjFormatIsSinglePass(s: string)
    ensures MdjFormat(s) == Compose(s)
  {
    ChainOrderInBase();
    ChainOrderCoversBase();
    calc {
      MdjFormat(s);
      Chain(s, ChainOrder);
      { FoldNothing(s); }
      Chain(FoldLetters(s, {}), ChainOrder);
      { ChainFolds(s, {}, ChainOrder); }
      FoldLetters(s, {} + Letters(ChainOrder));
      FoldLetters(s, BaseLetters);
    }
  }

  // ---------------------------------------------------------------------------
  // Properties of the single pass.

  lemma {:induction false} ComposeLength(s: string)
    ensures |Compose(s)| == |s| - PairCount(s)
  {
    if |s| >= 2 && PairAt(s, 0) {
      ComposeLength(s[2..]);
      assert !PairAt(s[1..], 0);
      assert PairCount(s[1..]) == PairCount(s[2..]);
    } else if s != [] {
      ComposeLength(s[1..]);
    }
  }

  lemma {:induction false} ComposeNoPairs(s: string)
    ensures NoPairs(s) ==> Compose(s) == s
  {
    if NoPairs(s) && s != [] {
      assert !PairAt(s, 0);
      assert NoPairs(s[1..]) by {
        forall i | 0 <= i < |s[1..]| ensures !PairAt(s[1..], i) {
          assert !PairAt(s, i + 1);
        }
      }
      ComposeNoPairs(s[1..]);
    }
  }

  lemma {:induction false} ComposeHasNoPairs(s: string)
    ensures NoPairs(Compose(s))
  {
    var r := Compose(s);
    if s == [] {
    } else if |s| >= 2 && PairAt(s, 0) {
      ComposeHasNoPairs(s[2..]);
      assert r == [Glyph(s[0])] + Compose(s[2..]);
      forall i | 0 <= i < |r| ensures !PairAt(r, i) {
        if i > 0 {
          assert !PairAt(Compose(s[2..]), i - 1);
        }
      }
    } else {
      ComposeHasNoPairs(s[1..]);
      FoldHead(s[1..], BaseLetters);
      assert r == [s[0]] + Compose(s[1..]);
      forall i | 0 <= i < |r| ensures !PairAt(r, i) {
        if i > 0 {
          assert !PairAt(Compose(s[1..]), i - 1);
        }
      }
    }
  }

  lemma {:induction false} PairCountZero(s: string)
    ensures PairCount(s) == 0 <==> NoPairs(s)
  {
    if |s| >= 2 {
      PairCountZero(s[1..]);
      if NoPairs(s) {
        forall i | 0 <= i < |s[1..]| ensures !PairAt(s[1..], i) {
          assert !PairAt(s, i + 1);
        }
      }
      if PairCount(s) == 0 {
        forall i | 0 <= i < |s| ensures !PairAt(s, i) {
          if i > 0 {
            assert !PairAt(s[1..], i - 1);
          }
        }
      }
    }
  }

  // ---------------------------------------------------------------------------
  // What `mdj_format` promises.

  /** A base letter of either case followed by an apostrophe becomes the lower case accented glyph. */
  lemma MdjFormatPair(c: char)
    requires c in BaseLetters
    ensures c == 'a' || c == 'A' ==> MdjFormat([c, Apostrophe]) == ['\U{E1}']
    ensures c == 'e' || c == 'E' ==> MdjFormat([c, Apostrophe]) == ['\U{E9}']
    ensures c == 'i' || c == 'I' ==> MdjFormat([c, Apostrophe]) == ['\U{ED}']
    ensures c == 'o' || c == 'O' ==> MdjFormat([c, Apostrophe]) == ['\U{F3}']
    ensures c == 'u' || c == 'U' ==> MdjFormat([c, Apostrophe]) == ['\U{FA}']
    ensures c == 'y' || c == 'Y' ==> MdjFormat([c, Apostrophe]) == ['\U{FD}']
    ensures c == 'w' || c == 'W' ==> MdjFormat([c, Apostrophe]) == ['\U{B5}']
  {
    PairBecomesGlyph(c);
  }

  lemma PairBecomesGlyph(c: char)
    requires c in BaseLetters
    ensures MdjFormat([c, Apostrophe]) == [Glyph(c)]
  {
    MdjFormatIsSinglePass([c, Apostrophe]);
    assert [c, Apostrophe][2..] == [];
    assert FoldLetters([c, Apostrophe], BaseLetters) == [Glyph(c)] + FoldLetters([], BaseLetters);
  }

  /** Output length is input length minus the number of folded pairs. */
  lemma MdjFormatLength(s: string)
    ensures |MdjFormat(s)| == |s| - PairCount(s)
  {
    MdjFormatIsSinglePass(s);
    ComposeLength(s);
  }

  /** Text is left unchanged exactly when it holds no base letter followed by an apostrophe. */
  lemma MdjFormatUnchanged(s: string)
    ensures MdjFormat(s) == s <==> NoPairs(s)
  {
    MdjFormatIsSinglePass(s);
    MdjFormatLength(s);
    PairCountZero(s);
    if NoPairs(s) {
      ComposeNoPairs(s);
    }
  }

  /** A letter outside the base set keeps its apostrophe (`b'` stays `b'`). */
  lemma MdjFormatKeepsOtherLetters(c: char)
    requires c !in BaseLetters
    ensures MdjFormat([c, Apostrophe]) == [c, Apostrophe]
  {
    MdjFormatUnchanged([c, Apostrophe]);
  }

  /** Applying the mapper twice changes nothing more: no glyph it writes is a base letter. */
  lemma MdjFormatIdempotent(s: string)
    ensures MdjFormat(MdjFormat(s)) == MdjFormat(s)
  {
    MdjFormatIsSinglePass(s);
    ComposeHasNoPairs(s);
    MdjFormatUnchanged(MdjFormat(s));
  }
}

=== FILE: rest.dfy ===
/**
  The chat platform's REST interface as the relay sees it.

  Every remote operation the core performs is a `Call`; what the platform
  answers is decided by a `Server`, a bundle of total functions that may look
  at everything that happened before (the event log). Any behaviour of the
  real platform, including endpoints deleted by others between two calls, is
  one choice of `Server`. Each call, with whether it raised, is appended to
  the log, which is the effect trace the properties speak about.
*/
module Rest {
  import opened Wrappers

  type ChannelId = nat
  type WebhookId = nat
  type MessageId = nat
  type UserId = nat

  /** The two REST errors the core reacts to. */
  datatype RemoteError = NotFoundError | ForbiddenError

  datatype Outcome<+T> = Ok(value: T) | Err(error: RemoteError)

  /** A webhook as listed for a channel; `incoming` says it is an `IncomingWebhook`. */
  datatype Webhook = Webhook(id: WebhookId, name: string, incoming: bool)

  datatype User = User(username: string, avatarUrl: string)

  /** A `user` argument: a user object, or only its id. */
  datatype UserRef = Known(user: User) | ById(id: UserId)

  /** The message parameters a renderer produces (`content`, or an image attachment). */
  datatype Params = Params(content: Option<string>, attachment: Option<seq<bv8>>)

  /** What a webhook execution posts: the parameters and the display identity. */
  datatype Request = Request(params: Params, username: Option<string>, avatarUrl: Option<string>)

  datatype Call =
    | FetchUser(user: UserId)
    | ListHooks(channel: ChannelId)
    | CreateHook(channel: ChannelId, name: string)
    | Execute(hook: WebhookId, request: Request)
    | DeleteMessage(message: MessageId)
    | CreateMessage(channel: ChannelId, params: Params)
    | Respond(text: string)

  /** One remote call and the error it raised, if any. */
  datatype Event = Event(call: Call, failed: Option<RemoteError>)

  /** The platform's answers; each function receives the log of earlier events. */
  datatype Server = Server(
    fetchUser: (seq<Event>, UserId) -> Outcome<User>,
    listHooks: (seq<Event>, ChannelId) -> Outcome<seq<Webhook>>,
    createHook: (seq<Event>, ChannelId, string) -> Outcome<WebhookId>,
    execute: (seq<Event>, WebhookId, Request) -> Outcome<MessageId>,
    deleteMessage: (seq<Event>, MessageId) -> Outcome<()>,
    createMessage: (seq<Event>, ChannelId, Params) -> Outcome<MessageId>,
    respond: (seq<Event>, string) -> Outcome<()>)

  function Failure<T>(o: Outcome<T>): (f: Option<RemoteError>)
    ensures f.None? <==> o.Ok?
  {
    if o.Ok? then None else Some(o.error)
  }

  /** The process state the relay keeps: its per-channel webhook cache, and the event log. */
  datatype Relay = Relay(cache: map<ChannelId, WebhookId>, log: seq<Event>)

  /** Records one call and its outcome. */
  function Log<T>(st: Relay, c: Call, o: Outcome<T>): (r: Relay)
    ensures r.cache == st.cache && r.log == st.log + [Event(c, Failure(o))]
  {
    st.(log := st.log + [Event(c, Failure(o))])
  }

  /** The events `after` added to `before`'s log. */
  function Since(before: Relay, after: Relay): seq<Event>
    requires before.log <= after.log
  {
    after.log[|before.log|..]
  }

  /** The events since `a` are those up to `b` followed by those after it. */
  lemma SinceSplit(a: Relay, b: Relay, c: Relay)
    requires a.log <= b.log <= c.log
    ensures Since(a, c) == Since(a, b) + Since(b, c)
  {
  }

  /** Every event of the sequence succeeded. */
  predicate AllSucceeded(evs: seq<Event>)
  {
    forall k :: 0 <= k < |evs| ==> evs[k].failed.None?
  }
}

=== FILE: triggers.dfy ===
/**
  The inline renderer (`render`): finds the trigger spans `` `mdj<ws>...` ``
  and rewrites each through the glyph mapper and the token table.

  The source uses the regular expression ``(?<!\\)`mdj\s([^`]*)` `` with
  `re.search` and `re.sub`. Here the pattern is an explicit predicate,
  `MatchAt`, and `re.sub` is the left-to-right scanner `Substitute`.
*/
module Triggers {
  import opened Wrappers
  import opened Glyphs
  import opened Emotes

  const Backtick: char := '`'
  const Backslash: char := '\\'

  /** The characters Python's `str.isspace()` accepts. */
  const Whitespace: set<char> := {
    '\t', '\n', '\U{0B}', '\U{0C}', '\r', '\U{1C}', '\U{1D}', '\U{1E}', '\U{1F}', ' ',
    '\U{85}', '\U{A0}', '\U{1680}',
    '\U{2000}', '\U{2001}', '\U{2002}', '\U{2003}', '\U{2004}', '\U{2005}',
    '\U{2006}', '\U{2007}', '\U{2008}', '\U{2009}', '\U{200A}',
    '\U{2028}', '\U{2029}', '\U{202F}', '\U{205F}', '\U{3000}'}

  /** Python's `\s` on `str` patterns. */
  predicate IsWhitespace(c: char)
  {
    c in Whitespace
  }

  /**
    A span opens at `i`: a backtick that is not preceded by a backslash,
    then `mdj`, then one whitespace character.
  */
  predicate OpensAt(s: string, i: int)
  {
    && 0 <= i && i + 5 <= |s|
    && (i == 0 || s[i - 1] != Backslash)
    && s[i] == Backtick && s[i + 1] == 'm' && s[i + 2] == 'd' && s[i + 3] == 'j'
    && IsWhitespace(s[i + 4])
  }

  /** The first backtick at or after `j`, or `|s|` when there is none. */
  function NextBacktick(s: string, j: nat): (k: nat)
    requires j <= |s|
    ensures j <= k <= |s|
    ensures k < |s| ==> s[k] == Backtick
    decreases |s| - j
  {
    if j == |s| || s[j] == Backtick then j else NextBacktick(s, j + 1)
  }

  /** No backtick lies between `j` and the one `NextBacktick` finds. */
  lemma {:induction false} NextBacktickFirst(s: string, j: nat)
    requires j <= |s|
    ensures forall m :: j <= m < NextBacktick(s, j) ==> s[m] != Backtick
    decreases |s| - j
  {
    if j < |s| && s[j] != Backtick {
      NextBacktickFirst(s, j + 1);
    }
  }

  /** The pattern matches at `i`: an opening and, somewhere after it, a closing backtick. */
  predicate MatchAt(s: string, i: int)
    ensures MatchAt(s, i) ==> 0 <= i && i + 6 <= |s|
  {
    OpensAt(s, i) && NextBacktick(s, i + 5) < |s|
  }

  /** Group 1 of the match at `i`: everything between the opening and the first backtick after it. */
  function Body(s: string, i: int): string
    requires MatchAt(s, i)
  {
    s[i + 5..NextBacktick(s, i + 5)]
  }

  /** The position just after the closing backtick of the match at `i`. */
  function MatchEnd(s: string, i: int): nat
    requires MatchAt(s, i)
  {
    NextBacktick(s, i + 5) + 1
  }

  /** `handle_mdj`: a span's body through the glyph mapper, then through the token table. */
  function Transform(table: map<char, string>, body: string): (r: string)
    ensures r == EmoteFormat(table, Compose(body))
    ensures NoPairs(body) && (forall i :: 0 <= i < |body| ==> body[i] !in table) ==> r == body
  {
    MdjFormatIsSinglePass(body);
    ComposeNoPairs(body);
    EmoteFormat(table, MdjFormat(body))
  }

  /**
    `re.sub` from position `pos`: each match replaced by `rewrite` applied to
    its body, every other character copied.
  */
  function Substitute(s: string, pos: nat, rewrite: string -> string): (r: string)
    requires pos <= |s|
    decreases |s| - pos
  {
    if pos == |s| then []
    else if MatchAt(s, pos) then rewrite(Body(s, pos)) + Substitute(s, MatchEnd(s, pos), rewrite)
    else [s[pos]] + Substitute(s, pos + 1, rewrite)
  }

  /** `re.search` from position `pos`: the leftmost match, if any. */
  function Search(s: string, pos: nat): (r: Option<nat>)
    requires pos <= |s|
    ensures r.Some? ==> pos <= r.value < |s| && MatchAt(s, r.value)
    ensures r.Some? ==> forall i :: pos <= i < r.value ==> !MatchAt(s, i)
    ensures r.None? ==> forall i :: pos <= i < |s| ==> !MatchAt(s, i)
    decreases |s| - pos
  {
    if pos == |s| then None
    else if MatchAt(s, pos) then Some(pos)
    else Search(s, pos + 1)
  }

  /**
    `render`: no result when the message holds no trigger span; otherwise the
    message with every span rewritten (the `content` of the returned params).
  */
  function Render(table: map<char, string>, s: string): (r: Option<string>)
    ensures r.None? <==> forall i :: 0 <= i < |s| ==> !MatchAt(s, i)
    ensures r.Some? ==> r.value == Substitute(s, 0, body => Transform(table, body))
  {
    if Search(s, 0).None? then None else Some(Substitute(s, 0, body => Transform(table, body)))
  }

  // ---------------------------------------------------------------------------
  // Locality of the rewrite.

  /** Text in which no span starts is copied unchanged. */
  lemma {:induction false} SubstituteCopies(s: string, pos: nat, k: nat, rewrite: string -> string)
    requires pos <= k <= |s|
    requires forall i :: pos <= i < k ==> !MatchAt(s, i)
    ensures Substitute(s, pos, rewrite) == s[pos..k] + Substitute(s, k, rewrite)
    decreases k - pos
  {
    if pos < k {
      SubstituteCopies(s, pos + 1, k, rewrite);
      SubstituteAtOther(s, pos, rewrite);
      ConsCopied(s, pos, k, Substitute(s, pos + 1, rewrite), Substitute(s, k, rewrite));
    }
  }

  /** The sequence step of `SubstituteCopies`. */
  lemma ConsCopied(s: string, pos: nat, k: nat, rest: string, tail: string)
    requires pos < k <= |s|
    requires rest == s[pos + 1..k] + tail
    ensures [s[pos]] + rest == s[pos..k] + tail
  {
    assert s[pos..k] == [s[pos]] + s[pos + 1..k];
  }

  /** A message without any span is returned unchanged by the scanner. */
  lemma SubstituteNoMatch(s: string, rewrite: string -> string)
    requires forall i :: 0 <= i < |s| ==> !MatchAt(s, i)
    ensures Substitute(s, 0, rewrite) == s
  {
    SubstituteCopies(s, 0, |s|, rewrite);
  }

  lemma {:induction false} NextBacktickShift(p: string, q: string, j: nat)
    requires j <= |q|
    ensures NextBacktick(p + q, |p| + j) == |p| + NextBacktick(q, j)
    decreases |q| - j
  {
    if j < |q| {
      assert (p + q)[|p| + j] == q[j];
      NextBacktickShift(p, q, j + 1);
    }
  }

  lemma OpensShift(p: string, q: string, j: nat)
    requires j <= |q|
    requires p == [] || p[|p| - 1] != Backslash
    ensures OpensAt(p + q, |p| + j) <==> OpensAt(q, j)
  {
    var s := p + q;
    var i := |p| + j;
    if j + 5 <= |q| {
      assert s[i] == q[j] && s[i + 1] == q[j + 1] && s[i + 2] == q[j + 2];
      assert s[i + 3] == q[j + 3] && s[i + 4] == q[j + 4];
      if j > 0 {
        assert s[i - 1] == q[j - 1];
      } else if p != [] {
        assert s[i - 1] == p[|p| - 1];
      }
    }
  }

  lemma MatchShift(p: string, q: string, j: nat)
    requires j <= |q|
    requires p == [] || p[|p| - 1] != Backslash
    ensures MatchAt(p + q, |p| + j) <==> MatchAt(q, j)
    ensures MatchAt(q, j) ==> Body(p + q, |p| + j) == Body(q, j) && MatchEnd(p + q, |p| + j) == |p| + MatchEnd(q, j)
  {
    OpensShift(p, q, j);
    if j + 5 <= |q| {
      NextBacktickShift(p, q, j + 5);
      if MatchAt(q, j) {
        var e := NextBacktick(q, j + 5);
        assert (p + q)[|p| + j + 5..|p| + e] == q[j + 5..e];
      }
    }
  }

  /** One step of the scanner at a match. */
  lemma SubstituteAtMatch(s: string, pos: nat, rewrite: string -> string)
    requires pos < |s| && MatchAt(s, pos)
    ensures Substitute(s, pos, rewrite) == rewrite(Body(s, pos)) + Substitute(s, MatchEnd(s, pos), rewrite)
  {
  }

  /** One step of the scanner elsewhere. */
  lemma SubstituteAtOther(s: string, pos: nat, rewrite: string -> string)
    requires pos < |s| && !MatchAt(s, pos)
    ensures Substitute(s, pos, rewrite) == [s[pos]] + Substitute(s, pos + 1, rewrite)
  {
  }

  /** The shift of `SubstituteShift` for one scanner step at a match, given the shift after it. */
  lemma ShiftAtMatch(p: string, q: string, j: nat, rewrite: string -> string)
    requires j < |q| && MatchAt(q, j)
    requires p == [] || p[|p| - 1] != Backslash
    requires Substitute(p + q, |p| + MatchEnd(q, j), rewrite) == Substitute(q, MatchEnd(q, j), rewrite)
    ensures Substitute(p + q, |p| + j, rewrite) == Substitute(q, j, rewrite)
  {
    MatchShift(p, q, j);
    SubstituteAtMatch(p + q, |p| + j, rewrite);
    SubstituteAtMatch(q, j, rewrite);
  }

  /** The shift of `SubstituteShift` for one copied character, given the shift after it. */
  lemma ShiftAtOther(p: string, q: string, j: nat, rewrite: string -> string)
    requires j < |q| && !MatchAt(q, j)
    requires p == [] || p[|p| - 1] != Backslash
    requires Substitute(p + q, |p| + j + 1, rewrite) == Substitute(q, j + 1, rewrite)
    ensures Substitute(p + q, |p| + j, rewrite) == Substitute(q, j, rewrite)
  {
    MatchShift(p, q, j);
    assert (p + q)[|p| + j] == q[j];
    SubstituteAtOther(p + q, |p| + j, rewrite);
    SubstituteAtOther(q, j, rewrite);
  }

  /**
    The scan of the text after a prefix that does not end in a backslash is
    the scan of that text on its own: what precedes a span only matters
    through the escape.
  */
  lemma {:induction false} SubstituteShift(p: string, q: string, j: nat, rewrite: string -> string)
    requires j <= |q|
    requires p == [] || p[|p| - 1] != Backslash
    ensures Substitute(p + q, |p| + j, rewrite) == Substitute(q, j, rewrite)
    decreases |q| - j
  {
    if j < |q| {
      SubstituteShift(p, q, ScanNext(q, j), rewrite);
      ShiftStep(p, q, j, rewrite);
    }
  }

  /** Where the scanner resumes after position `j`: past the span that starts there, or at the next character. */
  function ScanNext(s: string, j: nat): (k: nat)
    requires j < |s|
    ensures j < k <= |s|
  {
    if MatchAt(s, j) then MatchEnd(s, j) else j + 1
  }

  /** One scanner step of `SubstituteShift`, given the shift from where the scanner resumes. */
  lemma ShiftStep(p: string, q: string, j: nat, rewrite: string -> string)
    requires j < |q|
    requires p == [] || p[|p| - 1] != Backslash
    requires Substitute(p + q, |p| + ScanNext(q, j), rewrite) == Substitute(q, ScanNext(q, j), rewrite)
    ensures Substitute(p + q, |p| + j, rewrite) == Substitute(q, j, rewrite)
  {
    if MatchAt(q, j) {
      ShiftAtMatch(p, q, j, rewrite);
    } else {
      ShiftAtOther(p, q, j, rewrite);
    }
  }

  /** The first backtick at or after `j` is the one at `k` when none lies in between. */
  lemma {:induction false} NextBacktickAt(s: string, j: nat, k: nat)
    requires j <= k < |s| && s[k] == Backtick
    requires forall m :: j <= m < k ==> s[m] != Backtick
    ensures NextBacktick(s, j) == k
    decreases k - j
  {
    if j < k {
      NextBacktickAt(s, j + 1, k);
    }
  }

  /** Where the span of `pre + "`mdj" + w + body + "`" + post` sits, under the conditions of `RenderSpan`. */
  lemma SpanPosition(pre: string, w: char, body: string, post: string)
    requires pre == [] || pre[|pre| - 1] != Backslash
    requires IsWhitespace(w)
    requires Backtick !in body
    ensures var s := pre + [Backtick, 'm', 'd', 'j', w] + body + [Backtick] + post;
      && MatchAt(s, |pre|)
      && Body(s, |pre|) == body
      && MatchEnd(s, |pre|) == |pre| + 6 + |body|
  {
    var s := pre + [Backtick, 'm', 'd', 'j', w] + body + [Backtick] + post;
    var open := |pre|;
    var close := open + 5 + |body|;
    assert s[..open] == pre;
    assert s[open + 5..close] == body;
    assert s[close] == Backtick;
    NextBacktickAt(s, open + 5, close);
    assert OpensAt(s, open) by {
      if open > 0 {
        assert s[open - 1] == pre[open - 1];
      }
    }
  }

  /** Text without a backtick starts no span, whatever follows it. */
  lemma PlainNoMatch(pre: string, rest: string)
    requires Backtick !in pre
    ensures forall i :: 0 <= i < |pre| ==> !MatchAt(pre + rest, i)
  {
    forall i | 0 <= i < |pre|
      ensures !MatchAt(pre + rest, i)
    {
      assert (pre + rest)[i] == pre[i];
    }
  }

  /** The scan of a message with one leading span, for any rewrite of the span's body. */
  lemma SubstituteSpan(pre: string, w: char, body: string, post: string, rewrite: string -> string)
    requires forall i :: 0 <= i < |pre| ==> !MatchAt(pre + [Backtick, 'm', 'd', 'j', w] + body + [Backtick] + post, i)
    requires pre == [] || pre[|pre| - 1] != Backslash
    requires IsWhitespace(w)
    requires Backtick !in body
    ensures Substitute(pre + [Backtick, 'm', 'd', 'j', w] + body + [Backtick] + post, 0, rewrite)
         == pre + rewrite(body) + Substitute(post, 0, rewrite)
  {
    var head := pre + [Backtick, 'm', 'd', 'j', w] + body + [Backtick];
    var s := head + post;
    assert s == pre + [Backtick, 'm', 'd', 'j', w] + body + [Backtick] + post;
    SpanPosition(pre, w, body, post);
    assert MatchEnd(s, |pre|) == |head| + 0;
    calc {
      Substitute(s, 0, rewrite);
      { SubstituteCopies(s, 0, |pre|, rewrite); }
      s[0..|pre|] + Substitute(s, |pre|, rewrite);
      { assert s[0..|pre|] == pre; }
      pre + Substitute(s, |pre|, rewrite);
      { SubstituteAtMatch(s, |pre|, rewrite); }
      pre + (rewrite(Body(s, |pre|)) + Substitute(s, MatchEnd(s, |pre|), rewrite));
      pre + (rewrite(body) + Substitute(head + post, |head| + 0, rewrite));
      { SubstituteShift(head, post, 0, rewrite); }
      pre + (rewrite(body) + Substitute(post, 0, rewrite));
    }
  }

  /**
    One span: text before it in which no span starts (it may hold other
    inline code) and which does not end in a backslash is kept, the span is
    replaced by its rewritten body (delimiters and the `mdj<ws>` prefix
    dropped), and the rest is rendered on its own.
  */
  lemma RenderSpan(table: map<char, string>, pre: string, w: char, body: string, post: string)
    requires forall i :: 0 <= i < |pre| ==> !MatchAt(pre + [Backtick, 'm', 'd', 'j', w] + body + [Backtick] + post, i)
    requires pre == [] || pre[|pre| - 1] != Backslash
    requires IsWhitespace(w)
    requires Backtick !in body
    ensures Render(table, pre + [Backtick, 'm', 'd', 'j', w] + body + [Backtick] + post)
         == Some(pre + Transform(table, body) + Substitute(post, 0, b => Transform(table, b)))
  {
    var rewrite := b => Transform(table, b);
    SpanPosition(pre, w, body, post);
    SubstituteSpan(pre, w, body, post, rewrite);
  }

  /** `RenderSpan` for the common case of plain text, without any backtick, before the span. */
  lemma RenderPlainSpan(table: map<char, string>, pre: string, w: char, body: string, post: string)
    requires Backtick !in pre
    requires pre == [] || pre[|pre| - 1] != Backslash
    requires IsWhitespace(w)
    requires Backtick !in body
    ensures Render(table, pre + [Backtick, 'm', 'd', 'j', w] + body + [Backtick] + post)
         == Some(pre + Transform(table, body) + Substitute(post, 0, b => Transform(table, b)))
  {
    PlainNoMatch(pre, [Backtick, 'm', 'd', 'j', w] + body + [Backtick] + post);
    assert pre + ([Backtick, 'm', 'd', 'j', w] + body + [Backtick] + post) == pre + [Backtick, 'm', 'd', 'j', w] + body + [Backtick] + post;
    RenderSpan(table, pre, w, body, post);
  }

  /** No span starts in `see `x` and ` even with a span after it. */
  lemma InlineCodeNoMatch(s: string)
    requires |s| >= 12 && s[..12] == "see `x` and "
    ensures forall i :: 0 <= i < 12 ==> !MatchAt(s, i)
  {
    forall i | 0 <= i < 12
      ensures !OpensAt(s, i)
    {
      assert s[i] == s[..12][i];
      if i == 4 || i == 6 {
        assert s[i + 1] == s[..12][i + 1];
      }
    }
  }

  /** Inline code before a span is kept as it is, and the span after it is still rendered. */
  lemma InlineCodeBeforeSpan(table: map<char, string>, w: char, body: string, post: string)
    requires IsWhitespace(w)
    requires Backtick !in body
    ensures Render(table, "see `x` and " + [Backtick, 'm', 'd', 'j', w] + body + [Backtick] + post)
         == Some("see `x` and " + Transform(table, body) + Substitute(post, 0, b => Transform(table, b)))
  {
    var pre := "see `x` and ";
    var s := pre + [Backtick, 'm', 'd', 'j', w] + body + [Backtick] + post;
    assert s[..12] == pre;
    InlineCodeNoMatch(s);
    RenderSpan(table, pre, w, body, post);
  }

  /** A span whose opening backtick is escaped by a backslash is not rendered. */
  lemma EscapedSpanIgnored(table: map<char, string>, w: char, body: string)
    requires IsWhitespace(w)
    requires Backtick !in body
    ensures Render(table, [Backslash, Backtick, 'm', 'd', 'j', w] + body + [Backtick]) == None
  {
    var s := [Backslash, Backtick, 'm', 'd', 'j', w] + body + [Backtick];
    forall i | 0 <= i < |s|
      ensures !MatchAt(s, i)
    {
      if 2 <= i < |s| - 1 {
        assert s[i] != Backtick by {
          if i < 6 {
          } else {
            assert s[i] == body[i - 6];
          }
        }
      }
    }
  }
}

=== FILE: webhooks.dfy ===
/**
  `send_as_webhook`: posts a message through the channel's webhook under a
  chosen display name and avatar.

  The process-wide `webhooks` dict is the `cache` of a `Relay` value that goes
  in and comes out; calls are modelled one after another. The source's
  exceptions become values: `Declined` is its `return None`, `Raised` an error
  that leaves the function.
*/
module Webhooks {
  import opened Wrappers
  import opened Rest
  import opened Decimal

  const HookPrefix: string := "runicbabble-"

  /** The name the relay gives, and looks for, on a channel's webhook. */
  function HookName(ch: ChannelId): (r: string)
    ensures |r| > |HookPrefix| && r[..|HookPrefix|] == HookPrefix
    ensures forall i :: |HookPrefix| <= i < |r| ==> IsDigit(r[i])
    ensures |r| > |HookPrefix| + 1 ==> r[|HookPrefix|] != '0'
  {
    HookPrefix + ToDecimal(ch)
  }

  /** No two channels share a webhook name, so adoption never picks another channel's webhook. */
  lemma HookNameInjective(a: ChannelId, b: ChannelId)
    ensures HookName(a) == HookName(b) ==> a == b
  {
    if HookName(a) == HookName(b) {
      assert ToDecimal(a) == HookName(a)[|HookPrefix|..];
      assert ToDecimal(b) == HookName(b)[|HookPrefix|..];
      ToDecimalInjective(a, b);
    }
  }

  // ---------------------------------------------------------------------------
  // Identity

  /** The display name and avatar of a post; `None` is the source's `UNDEFINED`. */
  datatype Identity = Identity(username: Option<string>, avatarUrl: Option<string>)

  /** A user was given and at least one of name and avatar is still undefined. */
  predicate NeedsUser(user: Option<UserRef>, id: Identity)
  {
    user.Some? && (id.username.None? || id.avatarUrl.None?)
  }

  function FillFrom(id: Identity, u: User): Identity
  {
    Identity(
      if id.username.Some? then id.username else Some(u.username),
      if id.avatarUrl.Some? then id.avatarUrl else Some(u.avatarUrl))
  }

  /** The identity a send posts under when the user object itself is given: nothing is left undefined. */
  function KnownFill(user: Option<UserRef>, id: Identity): Identity
  {
    if user.Some? && user.value.Known? then FillFrom(id, user.value.user) else id
  }

  /** The identity a send posts under when the user is given by id and fetching it succeeds. */
  function FetchedFill(server: Server, log: seq<Event>, user: Option<UserRef>, id: Identity): Identity
  {
    if NeedsUser(user, id) && user.value.ById? && server.fetchUser(log, user.value.id).Ok?
    then FillFrom(id, server.fetchUser(log, user.value.id).value)
    else id
  }

  datatype Filled = Filled(identity: Outcome<Identity>, log: seq<Event>)

  /**
    The identity fill at the top of `send_as_webhook`: undefined values are
    taken from the user, fetched first when only its id was given.
  */
  function FillIdentity(server: Server, log: seq<Event>, user: Option<UserRef>, id: Identity): (r: Filled)
    ensures log <= r.log && |r.log| <= |log| + 1
    ensures forall k :: |log| <= k < |r.log| ==> r.log[k].call.FetchUser?
    ensures r.identity.Ok? ==> forall k :: |log| <= k < |r.log| ==> r.log[k].failed.None?
    ensures !NeedsUser(user, id) ==> r == Filled(Ok(id), log)
    ensures r.identity.Ok? && id.username.Some? ==> r.identity.value.username == id.username
    ensures r.identity.Ok? && id.avatarUrl.Some? ==> r.identity.value.avatarUrl == id.avatarUrl
    ensures NeedsUser(user, id) && user.value.Known? ==>
      && r.log == log
      && r.identity.Ok?
      && (id.username.None? ==> r.identity.value.username == Some(user.value.user.username))
      && (id.avatarUrl.None? ==> r.identity.value.avatarUrl == Some(user.value.user.avatarUrl))
    ensures NeedsUser(user, id) && user.value.ById? ==>
      && r.log == log + [Event(FetchUser(user.value.id), Failure(server.fetchUser(log, user.value.id)))]
      && (r.identity.Err? <==> server.fetchUser(log, user.value.id).Err?)
    ensures NeedsUser(user, id) && user.value.ById? && server.fetchUser(log, user.value.id).Ok? ==>
      r.identity == Ok(FillFrom(id, server.fetchUser(log, user.value.id).value))
    ensures r.identity.Ok? && NeedsUser(user, id) ==>
      r.identity.value.username.Some? && r.identity.value.avatarUrl.Some?
  {
    if !NeedsUser(user, id) then Filled(Ok(id), log)
    else
      match user.value
      case Known(u) => Filled(Ok(FillFrom(id, u)), log)
      case ById(uid) =>
        var fetched := server.fetchUser(log, uid);
        var log' := log + [Event(FetchUser(uid), Failure(fetched))];
        match fetched
        case Ok(u) => Filled(Ok(FillFrom(id, u)), log')
        case Err(e) => Filled(Err(e), log')
  }

  // ---------------------------------------------------------------------------
  // Cache lookup

  /** A listed webhook the relay adopts: an incoming webhook with exactly the channel's name. */
  predicate Adoptable(wh: Webhook, name: string)
  {
    wh.incoming && wh.name == name
  }

  /** Index of the first adoptable webhook at or after `from`. */
  function FirstNamed(whs: seq<Webhook>, name: string, from: nat): (r: Option<nat>)
    requires from <= |whs|
    ensures r.Some? ==> from <= r.value < |whs| && Adoptable(whs[r.value], name)
    ensures r.Some? ==> forall j :: from <= j < r.value ==> !Adoptable(whs[j], name)
    ensures r.None? ==> forall j :: from <= j < |whs| ==> !Adoptable(whs[j], name)
    decreases |whs| - from
  {
    if from == |whs| then None
    else if Adoptable(whs[from], name) then Some(from)
    else FirstNamed(whs, name, from + 1)
  }

  /** The cache changed at most at `ch`, and an entry once there stays. */
  ghost predicate CacheGrows(before: map<ChannelId, WebhookId>, after: map<ChannelId, WebhookId>, ch: ChannelId)
  {
    && (ch in before ==> ch in after)
    && forall c :: c != ch ==> (c in before <==> c in after) && (c in before ==> after[c] == before[c])
  }

  /**
    The webhook to use: `Ok(Some(w))`, `Ok(None)` when the channel cannot list
    webhooks (the source's `return None`), or an error leaving the lookup.
  */
  datatype Lookup = Lookup(hook: Outcome<Option<WebhookId>>, relay: Relay)

  /**
    How `send_as_webhook` ends when the lookup yields no webhook: an error
    other than `ForbiddenError` leaves it, otherwise it returns `None`.
  */
  function LookupFailure(hook: Outcome<Option<WebhookId>>): SendOutcome
  {
    if hook == Err(NotFoundError) then Raised(NotFoundError) else Declined
  }

  /** The cache hit / adopt-by-name / create-if-absent step of `send_as_webhook`. */
  function GetOrCreate(server: Server, st: Relay, ch: ChannelId): (r: Lookup)
    ensures st.log <= r.relay.log
    ensures CacheGrows(st.cache, r.relay.cache, ch)
    ensures ch in st.cache ==> r == Lookup(Ok(Some(st.cache[ch])), st)
    ensures ch !in st.cache ==> |Since(st, r.relay)| >= 1 && Since(st, r.relay)[0].call == ListHooks(ch)
    ensures r.hook.Ok? && r.hook.value.Some? ==>
      && ch in r.relay.cache && r.relay.cache[ch] == r.hook.value.value
      && AllSucceeded(Since(st, r.relay))
    ensures r.hook.Ok? && r.hook.value.None? ==>
      && r.relay.cache == st.cache
      && Since(st, r.relay) == [Event(ListHooks(ch), Some(NotFoundError))]
    ensures r.hook.Err? ==>
      && r.relay.cache == st.cache
      && |Since(st, r.relay)| >= 1
      && var evs := Since(st, r.relay);
         && evs[|evs| - 1].failed == Some(r.hook.error)
         && (evs[|evs| - 1].call.ListHooks? || evs[|evs| - 1].call.CreateHook?)
         && AllSucceeded(evs[..|evs| - 1])
    ensures forall k :: 0 <= k < |Since(st, r.relay)| ==>
      Since(st, r.relay)[k].call.ListHooks? || Since(st, r.relay)[k].call.CreateHook?
    ensures |Since(st, r.relay)| <= 2
    ensures r.hook.Err? || r.hook.value.None? ==>
      && EndsAsReported(LookupFailure(r.hook), Since(st, r.relay))
      && OnlyNotFoundRetried(Since(st, r.relay))
  {
    if ch in st.cache then Lookup(Ok(Some(st.cache[ch])), st)
    else
      var listed := server.listHooks(st.log, ch);
      var st1 := Log(st, ListHooks(ch), listed);
      match listed
      case Err(NotFoundError) => Lookup(Ok(None), st1)
      case Err(ForbiddenError) => Lookup(Err(ForbiddenError), st1)
      case Ok(whs) =>
        match FirstNamed(whs, HookName(ch), 0)
        case Some(i) => Lookup(Ok(Some(whs[i].id)), st1.(cache := st1.cache[ch := whs[i].id]))
        case None =>
          var created := server.createHook(st1.log, ch, HookName(ch));
          var st2 := Log(st1, CreateHook(ch, HookName(ch)), created);
          match created
          case Ok(w) => Lookup(Ok(Some(w)), st2.(cache := st2.cache[ch := w]))
          case Err(e) =>
            assert Since(st, st2) == [Event(ListHooks(ch), None), Event(CreateHook(ch, HookName(ch)), Some(e))];
            assert LookupFailure(Err(e)) == if e == ForbiddenError then Declined else Raised(NotFoundError);
            Lookup(Err(e), st2)
  }

  // ---------------------------------------------------------------------------
  // Execution and the one retry

  /** What `send_as_webhook` ends with: a posted message, `None`, or an exception. */
  datatype SendOutcome = Delivered(message: MessageId) | Declined | Raised(error: RemoteError)

  datatype Sent = Sent(outcome: SendOutcome, relay: Relay)

  /**
    Which webhook the retry after a `NotFoundError` executes: the source
    re-executes the stale local `webhook` (`RetryStale`); `RetryFresh` uses the
    webhook just created.
  */
  datatype RetryPolicy = RetryStale | RetryFresh

  /** The events end with an execution that posted. */
  ghost predicate EndsDelivered(evs: seq<Event>)
  {
    |evs| >= 1 && evs[|evs| - 1].call.Execute? && evs[|evs| - 1].failed.None?
  }

  /**
    The events end with an error `send_as_webhook` turns into `None`: a
    `ForbiddenError` from a webhook call, or a channel whose webhooks cannot
    be listed.
  */
  ghost predicate EndsDeclined(evs: seq<Event>)
  {
    && |evs| >= 1
    && var last := evs[|evs| - 1];
       || (last.failed == Some(ForbiddenError) && !last.call.FetchUser?)
       || (last.call.ListHooks? && last.failed == Some(NotFoundError))
  }

  /** How an outcome can be read off the last event of a call that posts through a webhook. */
  ghost predicate EndsAsReported(outcome: SendOutcome, evs: seq<Event>)
  {
    && |evs| >= 1
    && (outcome.Delivered? <==> EndsDelivered(evs))
    && (outcome.Declined? <==> EndsDeclined(evs))
    && (outcome.Raised? ==> evs[|evs| - 1].failed == Some(outcome.error))
  }

  /**
    Every event before the last is a call that succeeded, other than an
    execution, or an execution that found no webhook: a send stops at its
    first posted message and at its first other error.
  */
  ghost predicate OnlyNotFoundRetried(evs: seq<Event>)
  {
    forall k :: 0 <= k < |evs| - 1 ==>
      if evs[k].call.Execute? then evs[k].failed == Some(NotFoundError) else evs[k].failed.None?
  }

  ghost predicate NoExecutions(evs: seq<Event>)
  {
    forall k :: 0 <= k < |evs| ==> !evs[k].call.Execute?
  }

  /** Under the source's policy, every execution goes to the same webhook. */
  ghost predicate ExecutesOnly(evs: seq<Event>, w: WebhookId)
  {
    forall k :: 0 <= k < |evs| ==> evs[k].call.Execute? ==> evs[k].call.hook == w
  }

  /**
    The calls of the execute block: one execution of `w`, and only after it
    found no webhook, one creation of the channel's webhook and, when that
    succeeded, one more execution of the same request, of the webhook the
    policy names (`made` is what the creation returned).
  */
  ghost predicate RetryShape(evs: seq<Event>, ch: ChannelId, w: WebhookId, req: Request, policy: RetryPolicy, made: WebhookId)
  {
    && 1 <= |evs| <= 3
    && evs[0].call == Execute(w, req)
    && (|evs| >= 2 ==>
          && evs[0].failed == Some(NotFoundError)
          && evs[1].call == CreateHook(ch, HookName(ch)))
    && (|evs| == 3 ==>
          && evs[1].failed.None?
          && evs[2].call == Execute(if policy == RetryStale then w else made, req))
  }

  predicate IsWebhookCall(c: Call)
  {
    c.FetchUser? || c.ListHooks? || c.CreateHook? || c.Execute?
  }

  /** The events are calls `send_as_webhook` makes: no deletion, no plain message, no reply. */
  ghost predicate WebhookCallsOnly(evs: seq<Event>)
  {
    forall k :: 0 <= k < |evs| ==> IsWebhookCall(evs[k].call)
  }

  /** Every execution among the events posts `req`. */
  ghost predicate ExecutesRequest(evs: seq<Event>, req: Request)
  {
    forall k :: 0 <= k < |evs| ==> evs[k].call.Execute? ==> evs[k].call.request == req
  }

  /** No listing and no creation among the events succeeded, so no webhook was obtained from the platform. */
  ghost predicate NoHookObtained(evs: seq<Event>)
  {
    forall k :: 0 <= k < |evs| ==> (evs[k].call.ListHooks? || evs[k].call.CreateHook?) ==> evs[k].failed.Some?
  }

  /** The `try: return await webhook.execute(...)` block with its `NotFoundError` handler. */
  function ExecuteWithRetry(server: Server, st: Relay, ch: ChannelId, w: WebhookId, req: Request, policy: RetryPolicy): (r: Sent)
    ensures st.log <= r.relay.log
    ensures CacheGrows(st.cache, r.relay.cache, ch)
    ensures |Since(st, r.relay)| == 3 ==> ch in r.relay.cache
    ensures RetryShape(Since(st, r.relay), ch, w, req, policy, if ch in r.relay.cache then r.relay.cache[ch] else w)
    ensures Since(st, r.relay)[0].failed == Failure(server.execute(st.log, w, req))
    ensures |Since(st, r.relay)| < 3 ==> r.relay.cache == st.cache
    ensures EndsAsReported(r.outcome, Since(st, r.relay))
    ensures OnlyNotFoundRetried(Since(st, r.relay))
  {
    var first := server.execute(st.log, w, req);
    var st1 := Log(st, Execute(w, req), first);
    match first
    case Ok(m) => Sent(Delivered(m), st1)
    case Err(ForbiddenError) => Sent(Declined, st1)
    case Err(NotFoundError) =>
      var created := server.createHook(st1.log, ch, HookName(ch));
      var st2 := Log(st1, CreateHook(ch, HookName(ch)), created);
      match created
      case Err(ForbiddenError) => Sent(Declined, st2)
      case Err(NotFoundError) => Sent(Raised(NotFoundError), st2)
      case Ok(made) =>
        var st3 := st2.(cache := st2.cache[ch := made]);
        var target := if policy == RetryStale then w else made;
        var retried := server.execute(st3.log, target, req);
        var st4 := Log(st3, Execute(target, req), retried);
        assert Since(st, st4) == [Event(Execute(w, req), Some(NotFoundError)), Event(CreateHook(ch, HookName(ch)), None), Event(Execute(target, req), Failure(retried))];
        match retried
        case Ok(m) => Sent(Delivered(m), st4)
        case Err(ForbiddenError) => Sent(Declined, st4)
        case Err(NotFoundError) => Sent(Raised(NotFoundError), st4)
  }

  /**
    On a miss, the webhook the lookup adopted or created is the one the
    execute block runs on: its calls follow the lookup's, and under the
    source's retry every execution goes to that webhook, which stays the
    cached entry unless the block recreated the webhook. A lookup that
    obtained no webhook ends the send.
  */
  ghost predicate MissDelivers(evs: seq<Event>, got: Lookup, ch: ChannelId, req: Request, policy: RetryPolicy, after: Relay)
  {
    && got.relay.log <= after.log
    && (got.hook.Ok? && got.hook.value.Some? ==>
          && ch in after.cache
          && RetryShape(Since(got.relay, after), ch, got.hook.value.value, req, policy, after.cache[ch])
          && (|Since(got.relay, after)| < 3 ==> after.cache == got.relay.cache)
          && (policy == RetryStale ==> ExecutesOnly(evs, got.hook.value.value)))
    && (got.hook.Err? || got.hook.value.None? ==> after == got.relay)
  }

  /** What the retry shape says about the calls: webhook calls only, each execution posting `req`. */
  lemma ShapeCalls(evs: seq<Event>, ch: ChannelId, w: WebhookId, req: Request, policy: RetryPolicy, made: WebhookId)
    requires RetryShape(evs, ch, w, req, policy, made)
    ensures WebhookCallsOnly(evs) && ExecutesRequest(evs, req)
    ensures policy == RetryStale ==> ExecutesOnly(evs, w)
  {
  }

  /** Events that all succeeded, put in front of a trace, change none of its trace properties. */
  lemma {:induction false} TraceAfterSuccesses(a: seq<Event>, b: seq<Event>, outcome: SendOutcome, req: Request)
    requires AllSucceeded(a) && WebhookCallsOnly(a) && NoExecutions(a)
    requires EndsAsReported(outcome, b) && OnlyNotFoundRetried(b) && WebhookCallsOnly(b) && ExecutesRequest(b, req)
    ensures EndsAsReported(outcome, a + b) && OnlyNotFoundRetried(a + b) && WebhookCallsOnly(a + b)
    ensures ExecutesRequest(a + b, req)
  {
    assert (a + b)[|a + b| - 1] == b[|b| - 1];
    forall k | 0 <= k < |a + b|
      ensures (a + b)[k] == if k < |a| then a[k] else b[k - |a|]
    {
    }
  }

  /** A trace of listing and creation calls only: webhook calls, and no execution at all. */
  lemma LookupOnlyTrace(evs: seq<Event>, ch: ChannelId)
    requires forall k :: 0 <= k < |evs| ==> evs[k].call.ListHooks? || evs[k].call.CreateHook?
    ensures WebhookCallsOnly(evs) && NoExecutions(evs)
  {
  }

  /** The execute block lists nothing, and it obtains a webhook whenever it went as far as the retry. */
  lemma ShapeFrame(evs: seq<Event>, ch: ChannelId, w: WebhookId, req: Request, policy: RetryPolicy, made: WebhookId)
    requires RetryShape(evs, ch, w, req, policy, made)
    ensures forall k :: 0 <= k < |evs| ==> !evs[k].call.ListHooks?
    ensures NoHookObtained(evs) ==> |evs| < 3
  {
    if |evs| == 3 {
      assert evs[1].call.CreateHook? && evs[1].failed.None?;
    }
  }

  /** `MissDelivers` for a lookup that obtained `w`, from the shape of the execute block that followed it. */
  lemma MissStep(st: Relay, got: Lookup, after: Relay, ch: ChannelId, w: WebhookId, req: Request, policy: RetryPolicy)
    requires st.log <= got.relay.log <= after.log
    requires got.hook == Ok(Some(w)) && NoExecutions(Since(st, got.relay))
    requires ch in after.cache && RetryShape(Since(got.relay, after), ch, w, req, policy, after.cache[ch])
    requires |Since(got.relay, after)| < 3 ==> after.cache == got.relay.cache
    ensures MissDelivers(Since(st, after), got, ch, req, policy, after)
  {
    SinceSplit(st, got.relay, after);
    if policy == RetryStale {
      ShapeCalls(Since(got.relay, after), ch, w, req, policy, after.cache[ch]);
      ExecutesOnlyAfter(Since(st, got.relay), Since(got.relay, after), w);
    }
  }

  /** Calls that execute nothing, in front of a trace, keep which webhook it executes. */
  lemma ExecutesOnlyAfter(a: seq<Event>, b: seq<Event>, w: WebhookId)
    requires NoExecutions(a) && ExecutesOnly(b, w)
    ensures ExecutesOnly(a + b, w)
  {
    assert forall k :: 0 <= k < |b| ==> (a + b)[|a| + k] == b[k];
    assert forall k :: 0 <= k < |a| ==> (a + b)[k] == a[k];
  }

  /** A successful listing in front of a trace: a webhook was obtained. */
  lemma ListedFirst(a: seq<Event>, b: seq<Event>)
    requires |a| >= 1 && a[0].call.ListHooks? && a[0].failed.None?
    ensures !NoHookObtained(a + b)
  {
    assert (a + b)[0] == a[0];
  }

  /** Fetching a user in front of a trace adds no listing and obtains no webhook. */
  lemma FetchesFirst(a: seq<Event>, b: seq<Event>)
    requires forall k :: 0 <= k < |a| ==> a[k].call.FetchUser?
    ensures (forall k :: 0 <= k < |b| ==> !b[k].call.ListHooks?) ==> forall k :: 0 <= k < |a + b| ==> !(a + b)[k].call.ListHooks?
    ensures NoHookObtained(a + b) ==> NoHookObtained(b)
  {
    assert forall k :: 0 <= k < |b| ==> (a + b)[|a| + k] == b[k];
    assert forall k :: 0 <= k < |a| ==> (a + b)[k] == a[k];
  }

  /**
    Everything of `send_as_webhook` after the identity fill: find or create the
    channel's webhook, then execute `req` through it.
  */
  function Deliver(server: Server, st: Relay, ch: ChannelId, req: Request, policy: RetryPolicy): (r: Sent)
    ensures st.log <= r.relay.log && |Since(st, r.relay)| >= 1
    ensures CacheGrows(st.cache, r.relay.cache, ch)
    ensures r.outcome.Delivered? ==> ch in r.relay.cache
    ensures ch in st.cache ==> Since(st, r.relay)[0].call == Execute(st.cache[ch], req)
    ensures ch !in st.cache ==> Since(st, r.relay)[0].call == ListHooks(ch)
    ensures EndsAsReported(r.outcome, Since(st, r.relay))
    ensures OnlyNotFoundRetried(Since(st, r.relay))
    ensures WebhookCallsOnly(Since(st, r.relay))
    ensures ExecutesRequest(Since(st, r.relay), req)
    ensures policy == RetryStale && ch in st.cache ==> ExecutesOnly(Since(st, r.relay), st.cache[ch])
    ensures ExecutesCached(Since(st, r.relay), r.relay.cache, ch)
    ensures ch in st.cache ==> ch in r.relay.cache && RetryShape(Since(st, r.relay), ch, st.cache[ch], req, policy, r.relay.cache[ch])
    ensures NoHookObtained(Since(st, r.relay)) ==> r.relay.cache == st.cache
    ensures ch !in st.cache ==> MissDelivers(Since(st, r.relay), GetOrCreate(server, st, ch), ch, req, policy, r.relay)
  {
    var got := GetOrCreate(server, st, ch);
    if got.hook.Err? || got.hook.value.None? then
      LookupOnlyTrace(Since(st, got.relay), ch);
      Sent(LookupFailure(got.hook), got.relay)
    else
      var w := got.hook.value.value;
      var sent := ExecuteWithRetry(server, got.relay, ch, w, req, policy);
      var evs := Since(got.relay, sent.relay);
      ShapeCalls(evs, ch, w, req, policy, if ch in sent.relay.cache then sent.relay.cache[ch] else w);
      SinceSplit(st, got.relay, sent.relay);
      assert ch in sent.relay.cache;
      if ch in st.cache then
        assert Since(st, got.relay) == [];
        assert Since(st, sent.relay) == Since(got.relay, sent.relay);
        ShapeFrame(evs, ch, w, req, policy, sent.relay.cache[ch]);
        sent
      else
        ListedFirst(Since(st, got.relay), Since(got.relay, sent.relay));
        LookupOnlyTrace(Since(st, got.relay), ch);
        MissStep(st, got, sent.relay, ch, w, req, policy);
        TraceAfterSuccesses(Since(st, got.relay), Since(got.relay, sent.relay), sent.outcome, req);
        sent
  }

  /** Every execution among the events happened with `ch` in `cache`. */
  ghost predicate ExecutesCached(evs: seq<Event>, cache: map<ChannelId, WebhookId>, ch: ChannelId)
  {
    forall k :: 0 <= k < |evs| ==> evs[k].call.Execute? ==> ch in cache
  }

  /** A request posts `params`, under the name and avatar given explicitly in `id`. */
  ghost predicate Carries(req: Request, params: Params, id: Identity)
  {
    && req.params == params
    && (id.username.Some? ==> req.username == id.username)
    && (id.avatarUrl.Some? ==> req.avatarUrl == id.avatarUrl)
  }

  ghost predicate ExecutesCarry(evs: seq<Event>, params: Params, id: Identity)
  {
    forall k :: 0 <= k < |evs| ==> evs[k].call.Execute? ==> Carries(evs[k].call.request, params, id)
  }

  /** Prepending calls that execute nothing keeps what is said about the executions. */
  lemma {:induction false} ExecutionsAfter(a: seq<Event>, b: seq<Event>, req: Request, params: Params, id: Identity, cache: map<ChannelId, WebhookId>, ch: ChannelId)
    requires NoExecutions(a)
    requires ExecutesRequest(b, req) && Carries(req, params, id) && ExecutesCached(b, cache, ch)
    ensures ExecutesCarry(a + b, params, id) && ExecutesCached(a + b, cache, ch)
  {
    forall k | 0 <= k < |a + b|
      ensures (a + b)[k] == if k < |a| then a[k] else b[k - |a|]
    {
    }
  }

  /** `ExecutionsAfter` for the three readings of the identity a send posts under. */
  lemma FilledExecutions(a: seq<Event>, b: seq<Event>, req: Request, params: Params, id: Identity, known: Identity, fetched: Identity, cache: map<ChannelId, WebhookId>, ch: ChannelId)
    requires NoExecutions(a) && ExecutesRequest(b, req) && ExecutesCached(b, cache, ch)
    requires Carries(req, params, id) && Carries(req, params, known) && Carries(req, params, fetched)
    ensures ExecutesCached(a + b, cache, ch)
    ensures ExecutesCarry(a + b, params, id) && ExecutesCarry(a + b, params, known) && ExecutesCarry(a + b, params, fetched)
  {
    ExecutionsAfter(a, b, req, params, id, cache, ch);
    ExecutionsAfter(a, b, req, params, known, cache, ch);
    ExecutionsAfter(a, b, req, params, fetched, cache, ch);
  }

  /** The request a send executes: the parameters with the filled identity. */
  function RequestFor(params: Params, who: Identity): Request
  {
    Request(params, who.username, who.avatarUrl)
  }

  /** `send_as_webhook(channel, user=..., username=..., avatar_url=..., **params)`. */
  function SendAsWebhook(server: Server, st: Relay, ch: ChannelId, params: Params, user: Option<UserRef>, id: Identity, policy: RetryPolicy): (r: Sent)
    ensures st.log <= r.relay.log
    ensures CacheGrows(st.cache, r.relay.cache, ch)
    ensures r.outcome.Delivered? ==> ch in r.relay.cache
    ensures EndsAsReported(r.outcome, Since(st, r.relay))
    ensures OnlyNotFoundRetried(Since(st, r.relay))
    ensures WebhookCallsOnly(Since(st, r.relay))
    ensures ExecutesCached(Since(st, r.relay), r.relay.cache, ch)
    ensures ExecutesCarry(Since(st, r.relay), params, id)
    ensures ExecutesCarry(Since(st, r.relay), params, KnownFill(user, id))
    ensures ExecutesCarry(Since(st, r.relay), params, FetchedFill(server, st.log, user, id))
    ensures ch in st.cache ==> forall k :: 0 <= k < |Since(st, r.relay)| ==> !Since(st, r.relay)[k].call.ListHooks?
    ensures NoHookObtained(Since(st, r.relay)) ==> r.relay.cache == st.cache
  {
    var filled := FillIdentity(server, st.log, user, id);
    var st0 := st.(log := filled.log);
    FillTrace(server, st, user, id, params);
    match filled.identity
    case Err(e) => Sent(Raised(e), st0)
    case Ok(who) =>
      var req := RequestFor(params, who);
      var sent := Deliver(server, st0, ch, req, policy);
      SinceSplit(st, st0, sent.relay);
      FetchesFirst(Since(st, st0), Since(st0, sent.relay));
      TraceAfterSuccesses(Since(st, st0), Since(st0, sent.relay), sent.outcome, req);
      FilledExecutions(Since(st, st0), Since(st0, sent.relay), req, params, id, KnownFill(user, id), FetchedFill(server, st.log, user, id), sent.relay.cache, ch);
      if ch in st.cache then
        ShapeFrame(Since(st0, sent.relay), ch, st.cache[ch], req, policy, sent.relay.cache[ch]);
        sent
      else
        sent
  }

  /** The identity fill's calls as a trace, and what the filled request carries. */
  lemma FillTrace(server: Server, st: Relay, user: Option<UserRef>, id: Identity, params: Params)
    ensures var filled := FillIdentity(server, st.log, user, id);
      var evs := Since(st, st.(log := filled.log));
      && NoExecutions(evs) && WebhookCallsOnly(evs)
      && (forall k :: 0 <= k < |evs| ==> evs[k].call.FetchUser?)
      && (filled.identity.Err? ==>
            && EndsAsReported(Raised(filled.identity.error), evs)
            && OnlyNotFoundRetried(evs))
      && (filled.identity.Ok? ==>
            && AllSucceeded(evs)
            && Carries(RequestFor(params, filled.identity.value), params, id)
            && Carries(RequestFor(params, filled.identity.value), params, KnownFill(user, id))
            && Carries(RequestFor(params, filled.identity.value), params, FetchedFill(server, st.log, user, id)))
  {
    var filled := FillIdentity(server, st.log, user, id);
    var evs := Since(st, st.(log := filled.log));
    assert forall k :: 0 <= k < |evs| ==> evs[k] == filled.log[|st.log| + k];
  }

  // ---------------------------------------------------------------------------
  // Scenarios of `send_as_webhook`

  /** A cache hit that executes: one call, to the cached webhook, and the cache is left as it was. */
  lemma CacheHitDelivers(server: Server, st: Relay, ch: ChannelId, req: Request, policy: RetryPolicy, m: MessageId)
    requires ch in st.cache && server.execute(st.log, st.cache[ch], req) == Ok(m)
    ensures var r := Deliver(server, st, ch, req, policy);
      && r.outcome == Delivered(m)
      && r.relay.cache == st.cache
      && Since(st, r.relay) == [Event(Execute(st.cache[ch], req), None)]
  {
  }

  /** A cache hit whose execution is forbidden: `None`, one call, and the cache is left as it was. */
  lemma CacheHitForbiddenDeclines(server: Server, st: Relay, ch: ChannelId, req: Request, policy: RetryPolicy)
    requires ch in st.cache && server.execute(st.log, st.cache[ch], req) == Err(ForbiddenError)
    ensures var r := Deliver(server, st, ch, req, policy);
      && r.outcome == Declined
      && r.relay.cache == st.cache
      && Since(st, r.relay) == [Event(Execute(st.cache[ch], req), Some(ForbiddenError))]
  {
  }

  /** A miss on a channel whose webhooks cannot be listed: `None`, no creation, the cache unchanged. */
  lemma UnlistableChannelDeclines(server: Server, st: Relay, ch: ChannelId, req: Request, policy: RetryPolicy)
    requires ch !in st.cache && server.listHooks(st.log, ch) == Err(NotFoundError)
    ensures var r := Deliver(server, st, ch, req, policy);
      && r.outcome == Declined
      && r.relay.cache == st.cache
      && Since(st, r.relay) == [Event(ListHooks(ch), Some(NotFoundError))]
  {
  }

  /** A miss whose listing holds an adoptable webhook: the first such one is cached, nothing is created. */
  lemma MissAdoptsFirstNamed(server: Server, st: Relay, ch: ChannelId, j: nat)
    requires ch !in st.cache && server.listHooks(st.log, ch).Ok?
    requires var whs := server.listHooks(st.log, ch).value;
      && j < |whs| && Adoptable(whs[j], HookName(ch))
      && forall i :: 0 <= i < j ==> !Adoptable(whs[i], HookName(ch))
    ensures var r := GetOrCreate(server, st, ch);
      && r.hook == Ok(Some(server.listHooks(st.log, ch).value[j].id))
      && r.relay.cache == st.cache[ch := server.listHooks(st.log, ch).value[j].id]
      && Since(st, r.relay) == [Event(ListHooks(ch), None)]
  {
    var whs := server.listHooks(st.log, ch).value;
    var found := FirstNamed(whs, HookName(ch), 0);
    assert found == Some(j);
  }

  /** A miss with no adoptable webhook listed: exactly one webhook, named for the channel, is created. */
  lemma MissCreatesOne(server: Server, st: Relay, ch: ChannelId)
    requires ch !in st.cache && server.listHooks(st.log, ch).Ok?
    requires var whs := server.listHooks(st.log, ch).value;
      forall i :: 0 <= i < |whs| ==> !Adoptable(whs[i], HookName(ch))
    ensures var r := GetOrCreate(server, st, ch);
      && Since(st, r.relay) == [
           Event(ListHooks(ch), None),
           Event(CreateHook(ch, HookName(ch)), Failure(server.createHook(st.log + [Event(ListHooks(ch), None)], ch, HookName(ch))))]
      && (r.hook.Ok? <==> Since(st, r.relay)[1].failed.None?)
      && (r.hook.Ok? ==> ch in r.relay.cache && r.hook.value == Some(r.relay.cache[ch]))
  {
    var whs := server.listHooks(st.log, ch).value;
    var found := FirstNamed(whs, HookName(ch), 0);
    assert found.None?;
  }

  /**
    An execution that finds no webhook: the channel's webhook is created anew
    and, when that works, cached and followed by exactly one more execution of
    the same request; a `NotFoundError` from that retry leaves the send.
  */
  lemma NotFoundRecreatesAndRetriesOnce(server: Server, st: Relay, ch: ChannelId, w: WebhookId, req: Request, policy: RetryPolicy, made: WebhookId)
    requires server.execute(st.log, w, req) == Err(NotFoundError)
    requires server.createHook(st.log + [Event(Execute(w, req), Some(NotFoundError))], ch, HookName(ch)) == Ok(made)
    ensures var r := ExecuteWithRetry(server, st, ch, w, req, policy);
      && |Since(st, r.relay)| == 3
      && Since(st, r.relay)[1] == Event(CreateHook(ch, HookName(ch)), None)
      && Since(st, r.relay)[2].call == Execute(if policy == RetryStale then w else made, req)
      && r.relay.cache == st.cache[ch := made]
      && (Since(st, r.relay)[2].failed == Some(NotFoundError) ==> r.outcome == Raised(NotFoundError))
  {
  }

  /** A `ForbiddenError` from any webhook call ends the send with `None`: nothing is called after it. */
  lemma ForbiddenEndsSend(server: Server, st: Relay, ch: ChannelId, params: Params, user: Option<UserRef>, id: Identity, policy: RetryPolicy, k: nat)
    requires var r := SendAsWebhook(server, st, ch, params, user, id, policy);
      && k < |Since(st, r.relay)|
      && Since(st, r.relay)[k].failed == Some(ForbiddenError)
      && !Since(st, r.relay)[k].call.FetchUser?
    ensures var r := SendAsWebhook(server, st, ch, params, user, id, policy);
      k == |Since(st, r.relay)| - 1 && r.outcome == Declined
  {
  }

  // ---------------------------------------------------------------------------
  // The retry of a deleted webhook

  /** Every execution of `w` finds no webhook: someone deleted it and it stays deleted. */
  ghost predicate Gone(server: Server, w: WebhookId)
  {
    forall log, q :: server.execute(log, w, q) == Err(NotFoundError)
  }

  /**
    As written, the retry executes the deleted webhook again, so a send through
    a deleted cached webhook never posts: it raises `NotFoundError` even when
    the replacement was created, and the replacement is cached for next time.
  */
  lemma StaleRetryNeverRecovers(server: Server, st: Relay, ch: ChannelId, w: WebhookId, req: Request)
    requires Gone(server, w)
    ensures var r := ExecuteWithRetry(server, st, ch, w, req, RetryStale);
      && !r.outcome.Delivered?
      && (|Since(st, r.relay)| == 3 ==> r.outcome == Raised(NotFoundError))
      && (server.createHook(st.log + [Event(Execute(w, req), Some(NotFoundError))], ch, HookName(ch)).Ok? ==>
            r.outcome == Raised(NotFoundError))
  {
  }

  /**
    Retrying with the webhook just created posts the message whenever that
    webhook works.
  */
  lemma FreshRetryRecovers(server: Server, st: Relay, ch: ChannelId, w: WebhookId, req: Request, made: WebhookId)
    requires Gone(server, w)
    requires server.createHook(st.log + [Event(Execute(w, req), Some(NotFoundError))], ch, HookName(ch)) == Ok(made)
    requires forall log :: server.execute(log, made, req).Ok?
    ensures var r := ExecuteWithRetry(server, st, ch, w, req, RetryFresh);
      && r.outcome.Delivered?
      && ch in r.relay.cache && r.relay.cache[ch] == made
  {
  }
}

=== FILE: wrappers.dfy ===
/** The optional value shared by the other modules. */
module Wrappers {

  /** Python's `None` versus a present value. */
  datatype Option<+T> = None | Some(value: T)
}
